=== FILE: README.md ===
# A minimal BitTorrent-style swarm, modelled in Dafny

The system is a toy peer-to-peer file exchange in two Python programs.

- **The tracker** (`Tracker_Sever.py`) is an HTTP handler. It keeps a dict from peer id to
  `{ip, port, info_hash}`. It answers each announce according to its `event`:
  - `started` registers the caller and lists every peer with its id;
  - `stopped` removes the caller;
  - `completed` only acknowledges;
  - anything else lists the stored values.
- **The client** (`Client.py`) keeps a four-piece `have_pieces` list of 0/1 flags.
  - It serves `REQUEST_PIECE:<i>` on inbound connections, answering `PIECE_DATA:<i>` or
    `PIECE_NOT_AVAILABLE`.
  - It announces `started` to the tracker.
  - It opens one outbound connection per listed peer other than itself. On each one it
    requests every piece it is missing, in index order, and marks what the replies name.
  - It waits until every flag is set, then announces `completed`.

The model keeps to what the code does, including its rough edges:

- Python's negative list indexing: `REQUEST_PIECE:-1` is answered from the last flag.
- The client marks the index written in a `PIECE_DATA` reply, not the index it asked for.
- A `KeyError` when a listed peer has no `peer_id`.
- A `ValueError` in the tracker when `port` is not an integer.
- The string handling the wire format depends on: `str.startswith`, `str.strip()`,
  `str.split(':')`, `int()` with its sign, whitespace and underscore rules, and `str(int)`.
  `strip()` and `int()` do not agree on whitespace: `strip()` also drops the ASCII
  separators 0x1C-0x1F, which `int()` refuses.

Modules, one per file:

| file | module | models |
|---|---|---|
| `wrappers.dfy` | `Wrappers` | `Option`, `Result` |
| `py_text.dfy` | `PyText` | the Python string operations listed above |
| `piece_store.dfy` | `PieceStore` | `have_pieces`: flags, indexing, marking, `all()` |
| `wire.dfy` | `Wire` | message formats and the strip/split/int parse of an index |
| `piece_server.dfy` | `PieceServer` | `handle_peer_connection` |
| `downloader.dfy` | `Downloader` | `connect_to_peer` |
| `dict.dfy` | `Dict` | an insertion-ordered dict as a list of bindings with distinct keys |
| `tracker.dfy` | `Tracker` | `TrackerHandler.do_GET` |
| `client.dfy` | `Client` | `announce_to_tracker`, `download_pieces`, `main` |

How the environment enters the model:

- **Inbound connections.** A connection is the sequence of strings its `recv` calls return.
  Running out of reads is the peer closing the connection.
- **Outbound connections.** A connection is a function from the request sent to what
  `recv` returns. `None` means the socket call raised.
- **Dialling.** `dial` maps a listed peer to its endpoint. `None` means `connect` failed.
- **The tracker call.** The client's HTTP request is a direct call of the modelled handler
  on the registry. The handler raising is the client's request failing.
- **Identities.** The client's `INFO_HASH`, `PEER_ID` and IP address are parameters.

## Model

| member | source | states |
|---|---|---|
| PyText.Strip | Client.py:48 | the stripped text never starts or ends with whitespace and is never longer |
| PyText.StripRemovesOnlySpace | Client.py:48 | `strip()` keeps a contiguous slice and everything it removes, on either side, is whitespace |
| PyText.StripClean | Client.py:48 | a string that neither starts nor ends with whitespace is unchanged by `strip()` |
| PyText.StripKeepsMiddle | Client.py:48-49 | both kinds of stripping keep a contiguous slice, and everything they remove is whitespace of their kind |
| PyText.StripInt | Client.py:49 | what `int()` skips leaves a text that neither starts nor ends with tab, line feed, vertical tab, form feed, carriage return or space, and is never longer |
| PyText.StripIntClean | Client.py:49 | a string that neither starts nor ends with `int()` whitespace is unchanged by that stripping |
| PyText.Split | Client.py:48 | `split(':')` yields one more piece than there are separators, and no piece holds a separator |
| PyText.JoinSplit | Client.py:48 | joining the pieces of a split with the separator gives back the original string |
| PyText.SplitJoin | Client.py:48 | splitting a join of separator-free pieces gives back the pieces |
| PyText.SplitAtFirst | Client.py:48 | the first piece of a split ends at the first separator |
| PyText.SplitWithoutSeparator | Client.py:48 | a string without the separator splits into itself alone |
| PyText.IntToStringShape | Client.py:52 | `str(n)` is decimal digits, with a leading `-` exactly when `n` is negative |
| PyText.NatToStringDigits | Client.py:97 | the decimal form of a natural number is made of digits only |
| PyText.DigitRunOfNat | Client.py:97 | the decimal form of a natural number is a digit run that denotes that number |
| PyText.ParseIntOfIntToString | Client.py:49 | `int(str(n)) == n` for every integer, negative ones included; CPython's 4300-digit conversion limit is not modelled (see Left out) |
| PyText.StartsWithPointwise | Client.py:47 | `startswith(p)` holds exactly when `p` is no longer than the text and agrees with it character by character |
| PyText.StartsWithConcat | Client.py:100 | `p + t` starts with `p`, and a text that starts with `p` is `p` followed by the rest |
| PyText.ParseInt | Client.py:49 | a text `int()` accepts is, once stripped of `int()` whitespace, non-empty and starts with a digit or a sign, and a negative result needs a leading `-` |
| PyText.ParseIntIgnoresSpace | Client.py:49 | `int()` whitespace (tab, line feed, vertical tab, form feed, carriage return, space) around the text does not change what `int()` reads |
| PyText.ParseIntRefusesSeparator | Client.py:48-49 | a separator 0x1C-0x1F in front of digits is dropped by `strip()` but makes `int()` raise |
| PyText.ParseIntRefusesFileSeparator | Client.py:49 | `int('\x1c0')` raises, while `'\x1c0'.strip() == '0'` |
| PyText.ParseIntSign | Tracker_Sever.py:32 | a digit run reads as the number it denotes; a leading `+` changes nothing and a leading `-` negates |
| PyText.ParseIntLeadingZero | Client.py:103 | a leading zero does not change the value: `int()` reads decimal, not octal |
| PyText.ParseIntUnderscore | Client.py:49 | an underscore between digits is only a separator: `int('1_0') == 10` |
| PyText.ParseIntRefuses | Client.py:49 | `int()` rejects the empty text, a bare sign, a letter, inner whitespace and a doubled sign |
| PyText.ParseIntRefusesStrayUnderscore | Tracker_Sever.py:32 | `int()` rejects a leading, trailing or doubled underscore |
| PyText.ColonNotInIntToString | Client.py:48 | a formatted integer never contains the separator `:` |
| PieceStore.Initial | Client.py:19 | `[0] * n` has length `n`, holds only 0/1 flags and owns nothing |
| PieceStore.Resolve | Client.py:50 | a Python index is valid exactly in `-n..n-1`; it then names position `k`, or `n + k` when negative, which is below `n` |
| PieceStore.ResolveFromEnd | Client.py:104 | `k - n` names the same flag as `k`, and those two are the only valid indices that name flag `k` |
| PieceStore.MarkOwned | Client.py:104 | after `have_pieces[i] = 1`, index `i` is owned, the length is kept and no other flag changes |
| PieceStore.MarkOwnedIdempotent | Client.py:104 | marking an index twice equals marking it once |
| PieceStore.MarkOwnedGains | Client.py:104 | marking only turns flags to 1 and keeps a 0/1 store 0/1 |
| PieceStore.GainsOnFlags | Client.py:104 | on a 0/1 store, a gain only moves flags from 0 to 1 and leaves a 0/1 store |
| PieceStore.OnlyGainsTransitive | Client.py:95-104 | two successive gains make one gain |
| PieceStore.OwnedStaysOwned | Client.py:96 | an owned piece stays owned through any gain |
| PieceStore.AllTruthyIffComplete | Client.py:125 | `all(have_pieces)` holds exactly when every index is owned |
| Wire.ParseIndex | Client.py:48-49 | parsing fails with an unpack error exactly when the stripped text has other than one `:`, and otherwise only with an `int()` error |
| Wire.ParseIndexOfTagged | Client.py:52 | a tag without `:`, then `:` and a formatted integer, parses back to that integer |
| Wire.ParseRequest | Client.py:97 | `REQUEST_PIECE:<i>` starts with the request tag and parses back to `i` |
| Wire.ParseData | Client.py:52 | `PIECE_DATA:<i>` starts with the data tag and parses back to `i` |
| Wire.NotAvailableIsNotData | Client.py:100 | `PIECE_NOT_AVAILABLE` does not start with `PIECE_DATA` |
| Wire.HaveIsNotRequest | Client.py:55 | a message that starts with `HAVE_PIECE` is never taken for a request |
| PieceServer.Serve | Client.py:43-57 | an empty read closes; only a request is answered or raises; anything else is ignored; every reply is a refusal or data for an owned index |
| PieceServer.ServeAnswersRequest | Client.py:50-54 | a request for `0 <= i < n` is answered `PIECE_DATA:i` exactly when flag `i` is set, and `PIECE_NOT_AVAILABLE` otherwise |
| PieceServer.ServeNegativeRequest | Client.py:50-52 | a request for `-n <= i < 0` is answered from flag `n + i`, and the data reply repeats the negative index |
| PieceServer.ServeRejectsOutOfRange | Client.py:50 | a request outside `-n..n-1` raises `IndexError` and gets no reply |
| PieceServer.ServeRejectsBadShape | Client.py:48 | a request whose stripped text has other than one `:` raises on unpacking |
| PieceServer.ServeRejectsNonInteger | Client.py:49 | a request whose second piece `int()` rejects raises `ValueError` |
| PieceServer.ServeIgnoresHave | Client.py:55-57 | a `HAVE_PIECE` notification gets no reply and the loop goes on |
| PieceServer.Loop | Client.py:42-45 | the loop reads at most the available messages and writes at most one reply per read; which ones is stated by `PieceServer.LoopStopsAtFirst` |
| PieceServer.LoopStopsAtFirst | Client.py:42-57 | the loop goes past a read only when it was answered or passed over, so it stops at the first close or raise, and it writes the reply of every answered read it took, in order, and nothing else |
| PieceServer.LoopSendsOnly | Client.py:42-57 | every reply written is one that a consumed read asked to send |
| PieceServer.LoopEndsAtLastAction | Client.py:42-59 | a raise is the last read taken; a close is the last read taken or the end of input; a last read that raised is reported as that raise, and one that closed as a close |
| PieceServer.ServeAll | Client.py:42-43 | each read is handled by the same per-message step |
| PieceServer.HandleConnection | Client.py:37-61 | every reply on a connection is sound; it reads past a message only when the message was non-empty and did not raise, so it ends at the first empty read or raising message, or at the end of input; it writes the answer to every request it read, in order; a raising last read is reported with its fault, an empty last read as the peer closing |
| PieceServer.Requests | Client.py:97 | the request messages for a list of indices, one per index, in order |
| PieceServer.Answers | Client.py:50-54 | the answers an owner gives to a list of in-range requests, one per request |
| PieceServer.ConnectionAnswersEveryRequest | Client.py:42-57 | a stream of in-range requests gets exactly one answer per request, in order, and ends only when the peer closes |
| PieceServer.EmptyReadEndsLoop | Client.py:44-45 | an empty read ends the connection at once with nothing written |
| PieceServer.MalformedClosesSilently | Client.py:58-61 | a first message whose handling raises closes the connection with nothing written |
| PieceServer.LoopOfSends | Client.py:42-54 | a loop whose every read is answered writes every answer, in order, and reads to the end |
| PieceServer.EmptyReadMidStream | Client.py:44-45 | a request, an empty read, then a request: only the first is answered and the third is never read |
| PieceServer.HaveThenRequest | Client.py:55-57 | a `HAVE_PIECE` notification followed by a request: the request is still answered |
| Downloader.Hear | Client.py:99-103 | a failed socket call is lost; a reply not starting with `PIECE_DATA` is a miss; only data replies yield an index or a parse error |
| Downloader.HearData | Client.py:100-103 | `PIECE_DATA:k` is heard as index `k` |
| Downloader.HearRefusal | Client.py:108-109 | the refusal and an empty read are both heard as misses |
| Downloader.Apply | Client.py:100-109 | a reply raises exactly on loss, a parse error or an index outside `-n..n-1`; otherwise only the flag it names can change, and only to 1 |
| Downloader.ApplyDataMarksNamedIndex | Client.py:102-104 | a data reply marks the index it names, resolved the Python way |
| Downloader.ApplyDataOutOfRange | Client.py:104 | a data reply naming an index outside `-n..n-1` raises |
| Downloader.Scan | Client.py:95-109 | the scan only gains flags, requests strictly ascending missing indices, and reaches the end unless it aborts; which flags it sets is stated by `Downloader.ScanChangesOnlyNamedIndices` and `Downloader.ScanKeepsNamed` |
| Downloader.ScanChangesOnlyNamedIndices | Client.py:100-104 | every flag that changed resolves from the index of a data reply to one of the scan's requests |
| Downloader.ScanKeepsNamed | Client.py:100-104 | every flag named by the data reply to one of the scan's requests is owned at the end, except after the reply that made an aborted scan raise: marks made before an abort survive it |
| Downloader.ScanAbortsOnRaise | Client.py:111-112 | an aborted scan stopped right after its last request, and what was heard for that request raises |
| Downloader.ScanRaisesOnlyAtEnd | Client.py:89-112 | no request except an aborted scan's last one had a reply that raises |
| Downloader.ScanSkipsOnlyOwned | Client.py:96 | every index inspected and not requested is owned at the end |
| Downloader.ScanRequestsExactlyMissing | Client.py:95-98 | for any remote, an inspected index is requested exactly when its flag is 0 as the loop reaches it: missing at the start and not marked by the reply to an earlier request |
| Downloader.ScanAgainstOwner | Client.py:95-104 | against an honest owner the scan never aborts, leaves earlier flags alone, owns what either side owned, and requests exactly the missing indices |
| Downloader.ConnectToPeer | Client.py:87-112 | a failed `connect` changes nothing and requests nothing; otherwise the store only gains, and the requests, in ascending order, are exactly the indices whose flag was 0 when the loop reached them; a flag changes only if a reply named it, and every flag named by a reply that did not raise is owned at the end |
| Downloader.AnsweringIsHeardAsOwner | Client.py:47-54 | the serving loop, asked for any of its indices, is heard as data for owned indices and as a miss otherwise |
| Downloader.DownloadFromServingPeer | Client.py:95-104 | one connection to a serving peer with the same piece count leaves exactly the union of both stores and requests exactly the missing pieces |
| Downloader.ServingPeerFillsGaps | Client.py:95-104 | a connection to a serving peer of the same piece count completes the store when every piece is owned on one side or the other |
| Downloader.TwoPeersComplete | Client.py:95-104 | with four pieces, A owning {0,1} and B owning {2,3}, each completes after downloading from the other |
| Downloader.ScanHeedsNamedIndex | Client.py:102-104 | if every reply says `PIECE_DATA:2`, a scan of three missing pieces asks for 0 and 1, marks only 2 and ends without 0 or 1 |
| Downloader.ReplyIndexNotLoopIndex | Client.py:97-104 | the same outcome against a remote whose every reply is `PIECE_DATA:2` |
| Dict.Find | Tracker_Sever.py:36 | the first position holding the key, or none exactly when the key is absent |
| Dict.Lookup | Tracker_Sever.py:36 | the value bound to the key, or none exactly when the key is absent |
| Dict.ToMap | Tracker_Sever.py:9 | the map view has exactly the bound keys, each with its looked-up value |
| Dict.Insert | Tracker_Sever.py:36-40 | assignment binds the key to the new value, keeps every other binding and the position of existing keys, and grows only for a new key, which goes last |
| Dict.Remove | Tracker_Sever.py:54 | `pop(k, None)` unbinds the key, keeps every other binding, and shrinks only when the key was bound |
| Dict.InsertIsMapUpdate | Tracker_Sever.py:36-40 | in the map view, assignment is map update |
| Dict.RemoveIsMapRemoval | Tracker_Sever.py:54 | in the map view, `pop` is removal of the key |
| Dict.RemoveKeepsOrder | Tracker_Sever.py:54 | `pop` keeps every other binding in its insertion order: it is filtering out the one key |
| Dict.ToMapSize | Tracker_Sever.py:9 | a dict has one map entry per binding, so it never holds a key twice |
| Dict.ToMapAt | Tracker_Sever.py:49 | every key of the map view is at some position of `items()`, with its value |
| Tracker.Views | Tracker_Sever.py:42-50 | the `peers` list has one element per registry entry, in insertion order, with or without the peer id |
| Tracker.Started | Tracker_Sever.py:34-51 | `started` registers the caller's address, port and hash, keeps the other entries in their places with a new caller last, replies 200 with the tracker id and lists every entry with its id |
| Tracker.Listing | Tracker_Sever.py:60-63 | any other event leaves the registry alone and lists the stored values without ids |
| Tracker.HandleEvent | Tracker_Sever.py:34-63 | the per-event effect and 200 reply for started, stopped, completed and any other event; no other peer's entry ever changes, and `started` keeps the registration order |
| Tracker.Announce | Tracker_Sever.py:20-63 | a missing or blank field gets 400 with the failure reason and changes nothing; a non-integer port raises and changes nothing; otherwise the handler dispatches on the event with the parsed port |
| Tracker.RepeatStartedOverwrites | Tracker_Sever.py:36-40 | a second `started` for the same id overwrites the entry and never adds a second one |
| Tracker.StartedListsEveryPeer | Tracker_Sever.py:42-50 | the `started` reply lists exactly as many peers as are registered, the caller among them, each with its stored entry |
| Tracker.StoppedRemovesCaller | Tracker_Sever.py:52-55 | `stopped` removes exactly the caller's entry, and does nothing for an unknown id |
| Tracker.StoppedKeepsOrder | Tracker_Sever.py:52-55 | after `stopped` the other peers stay in registration order, so later listings keep it |
| Client.AnnounceQuery | Client.py:22-27 | the query has exactly `info_hash`, `peer_id`, `port` and `event`; the tracker reads back the hash, the id and the event, and `int()` of the port gives 5000 |
| Client.AnnounceQueryAccepted | Client.py:22-28 | with non-empty identities the tracker accepts the client's query, reads back port 5000 and dispatches on the client's event |
| Client.PeersFromReply | Client.py:29-35 | the `peers` field on status 200, and `[]` when it is absent or the status is not 200 |
| Client.AnnounceToTracker | Client.py:21-35 | a request that fails leaves the tracker unchanged |
| Client.RejectedAnnounceYieldsNoPeers | Client.py:33-35 | an empty identity is rejected with 400, which the client reads as no peers, and the tracker is unchanged |
| Client.CompletedAnnounceYieldsNoPeers | Client.py:131 | the `completed` announce changes nothing at the tracker and yields no peers |
| Client.DownloadPieces | Client.py:79-85 | every connection goes to a listed peer with an id other than the client's own; the loop gets through the list exactly when every peer has an id, and then reaches every other peer; the connections are, in list order, exactly one per peer other than the client, up to the first peer without an id |
| Client.DownloadAll | Client.py:85 | the connections in sequence only gain flags |
| Client.CompleteStaysComplete | Client.py:125 | a complete store stays complete through any gain |
| Client.DownloadAllFromSeeder | Client.py:122-125 | if any connection reaches a peer serving the whole file, the store ends complete |
| Client.StartedAnnounce | Client.py:119 | the client's `started` announce is the tracker's `started` branch, and the client gets back that branch's peer list |
| Client.StartedListsCaller | Client.py:82-83 | the `started` reply lists the caller itself, which is why `download_pieces` must skip its own id |
| Client.Named | Client.py:79-82 | the position of the first listed peer without an id, where `peer['peer_id']` raises, or the length of the list |
| Client.DispatchOverListed | Client.py:79-85 | over a list where every peer has an id, the loop finishes, never reaches the caller, and reaches every other listed peer |
| Client.DispatchAfterStarted | Client.py:119-122 | after `started`, the loop over the returned list reaches every other registered peer and never the caller |
| Client.Finished | Client.py:125 | the wait in `main` ends exactly when every piece is owned |
| Client.Main | Client.py:114-131 | a run ends with a four-piece 0/1 store, and announces completion exactly when the store is complete |
| Client.JoiningBesideSeederCompletes | Client.py:114-131 | a client joining beside a registered seeder it can reach downloads the whole file, announces completion, stays registered with its address and leaves the seeder's entry alone |

## Left out

- Sockets, the HTTP server and `requests`: connections and the tracker call are modelled as described above. `recv(1024)` framing is not modelled: each read is taken to be exactly one message.
- Threads. `start_peer_server` and the per-connection threads are not modelled; inbound connections are modelled one at a time. The outbound connections of `download_pieces` run one after another, each on the store the previous one left.
- The busy-wait in `main` (`Client.py:125-126`). In a sequential run, a store still incomplete after every connection stays incomplete, and the loop would spin forever. `Client.Main` returns the run with `announcedCompletion` false instead of looping.
- `hashlib` (`Client.py:14-15`): `INFO_HASH` and `PEER_ID` are parameters. The lemmas that need the tracker to accept the client require them to be non-empty, as hex digests are.
- JSON and URL encoding and decoding, and `.decode()`/`.encode()` errors. `parse_qs` is taken as already applied: the query is a map from name to first value. `parse_qs` drops blank values; the model still treats an empty value as missing, as `not value` does.
- Unicode: only ASCII whitespace counts for `strip()` and `int()`, and only ASCII digits for `int()`.
- PyText.ParseInt: CPython's limit on integer-string conversion is not modelled. From Python 3.11 (and the matching security releases of older versions), `int()` of more than 4300 digits and `str()` of an integer that long raise `ValueError`. `sys.set_int_max_str_digits` changes the limit. The model reads and writes integers of any length, so `PyText.ParseIntOfIntToString` also holds beyond it. The integers the program itself formats are piece indices and its port, far below the limit. A longer digit run received from a peer or in a tracker query raises `ValueError` in CPython; the model reads it, so a request or a reply with such an index fails as an out-of-range index instead, and the tracker stores such a port instead of raising.
- The log messages of `print`.
- Sockets are not modelled, so neither is the fact that `connect_to_peer` leaves its socket open when it raises mid-scan (`Client.py:110` is skipped and `Client.py:111-112` only prints). The scan just stops; the flags it already set stay set, as `Downloader.ScanKeepsNamed` states.
- Downloader.Answering: when the serving loop sends nothing (an ignored message, or one that raised and closed the connection), the client is taken to read the empty string. The following send on a closed socket is not modelled.
- The tracker's exception on a non-integer `port` is the handler raising: no reply is modelled. For the client, this is the announce request failing.
- Client.AnnounceToTracker: its contract states only that a failed request changes nothing. What it returns in each case is stated by `Client.RejectedAnnounceYieldsNoPeers`, `Client.StartedAnnounce` and `Client.CompletedAnnounceYieldsNoPeers`.
- Some behaviours of the code differ from what a reader of the protocol might expect. The model follows the code:
  - **Marked index.** The client marks the index named in the reply (`Client.py:102-104`), whatever it requested; it does not check that the reply is for the requested index.
  - **Negative indices** are accepted on both sides (`Client.py:50`, `Client.py:104`).
  - **Non-200 status.** It yields an empty peer list (`Client.py:33-35`), not an error.
  - **Unrecognised messages.** A message that is neither a request nor a `HAVE_PIECE` notification is ignored and the loop goes on (`Client.py:47-57`). Only a request whose parsing or indexing raises ends the connection.
  - **Self-skip.** The skip of the client's own id happens in `download_pieces` (`Client.py:82-83`), before any connection is opened.
  - **`stopped`.** The client never sends it; it is modelled on the tracker side only.

=== FILE: client.dfy ===
/**
  The client's top level: its announce to the tracker, the choice of peers to
  download from, and the completion test, with the peer connections run one
  after another in place of one thread each.
 */
module Client {
  import opened Wrappers
  import opened PyText
  import opened PieceStore
  import opened Dict
  import opened Downloader
  import opened Tracker

  /** The port the client listens on for other peers. */
  const PeerPort := 5000

  /** Every file is four pieces. */
  const TotalPieces := 4

  /** The query `announce_to_tracker` sends; the port goes out in decimal. */
  function AnnounceQuery(infoHash: string, peerId: string, event: string): (q: Query)
    // exactly the four parameters, and the tracker reads each one back as sent
    ensures q.Keys == {"info_hash", "peer_id", "port", "event"}
    ensures Param(q, "info_hash") == Some(infoHash) && Param(q, "peer_id") == Some(peerId)
    ensures Param(q, "event") == Some(event)
    ensures ParseInt(q["port"]) == Some(PeerPort)
  {
    ParseIntOfIntToString(PeerPort);
    map["info_hash" := infoHash, "peer_id" := peerId, "port" := IntToString(PeerPort), "event" := event]
  }

  /** With non-empty identifiers (hex digests always are) the tracker accepts the
      client's query, reads back the client's own port and dispatches on its event. */
  lemma AnnounceQueryAccepted(reg: Registry, ip: string, infoHash: string, peerId: string, event: string)
    requires |infoHash| > 0 && |peerId| > 0
    ensures var q := AnnounceQuery(infoHash, peerId, event);
            && !MissingRequired(q)
            && ParseInt(q["port"]) == Some(PeerPort)
            && Announce(reg, ip, q) == HandleEvent(reg, ip, peerId, PeerPort, infoHash, Some(event))
  {
    var q := AnnounceQuery(infoHash, peerId, event);
    assert !MissingRequired(q) by {
      assert Param(q, "port") == Some(q["port"]) && |q["port"]| > 0;
    }
  }

  /** The peer list `announce_to_tracker` returns for a reply: the `peers` field
      on status 200, or `[]` when it is absent or the status is anything else. */
  function PeersFromReply(reply: Reply): (peers: seq<PeerView>)
    ensures reply.status != 200 ==> peers == []
    ensures reply.status == 200 && reply.body.peers.Some? ==> peers == reply.body.peers.value
    ensures reply.status == 200 && reply.body.peers.None? ==> peers == []
  {
    if reply.status == 200 then reply.body.peers.GetOr([]) else []
  }

  /** `announce_to_tracker(event)` against a tracker holding `reg`, from address `ip`.
      The second component is `None` when the tracker's handler raised and the
      client's request fails with it. */
  function AnnounceToTracker(reg: Registry, ip: string, infoHash: string, peerId: string, event: string)
    : (r: (Registry, Option<seq<PeerView>>))
    ensures r.1.None? ==> r.0 == reg
  {
    var o := Announce(reg, ip, AnnounceQuery(infoHash, peerId, event));
    match o.reply
    case None => (o.registry, None)
    case Some(reply) =>
      (o.registry, Some(PeersFromReply(reply)))
  }

  /** An empty identifier is rejected with 400, which the client reads as no peers. */
  lemma RejectedAnnounceYieldsNoPeers(reg: Registry, ip: string, infoHash: string, peerId: string, event: string)
    requires |infoHash| == 0 || |peerId| == 0
    ensures AnnounceToTracker(reg, ip, infoHash, peerId, event) == (reg, Some([]))
  {
    var q := AnnounceQuery(infoHash, peerId, event);
    assert q["peer_id"] == peerId && q["info_hash"] == infoHash;
    assert MissingRequired(q);
  }

  /** A `completed` announce changes nothing at the tracker and yields no peers. */
  lemma CompletedAnnounceYieldsNoPeers(reg: Registry, ip: string, infoHash: string, peerId: string)
    requires |infoHash| > 0 && |peerId| > 0
    ensures AnnounceToTracker(reg, ip, infoHash, peerId, "completed") == (reg, Some([]))
  {
    AnnounceQueryAccepted(reg, ip, infoHash, peerId, "completed");
  }

  /** The peers `download_pieces` started a connection to, in list order, and
      whether it got through the whole list (a peer without `peer_id` raises `KeyError`). */
  datatype Dispatch = Dispatch(targets: seq<PeerView>, finished: bool)

  /** The length of the longest prefix of `peers` whose every element carries a peer id:
      the position of the first `peer['peer_id']` that raises, or the whole list. */
  function Named(peers: seq<PeerView>): (p: nat)
    ensures p <= |peers|
    ensures forall q :: 0 <= q < p ==> peers[q].peerId.Some?
    ensures p < |peers| ==> peers[p].peerId.None?
  {
    if |peers| == 0 || peers[0].peerId.None? then 0
    else
      assert forall q :: 1 <= q < |peers| ==> peers[q] == peers[1..][q - 1];
      1 + Named(peers[1..])
  }

  /** The peers of `peers` other than `self`, in list order. */
  function Others(peers: seq<PeerView>, self: string): (others: seq<PeerView>)
    ensures |others| <= |peers|
  {
    if |peers| == 0 then [] else (if peers[0].peerId == Some(self) then [] else [peers[0]]) + Others(peers[1..], self)
  }

  /** `download_pieces(peers)` for the client `self`. */
  function DownloadPieces(peers: seq<PeerView>, self: string): (d: Dispatch)
    ensures |d.targets| <= |peers|
    ensures forall t :: t in d.targets ==> t in peers && t.peerId.Some? && t.peerId.value != self
    ensures d.finished <==> forall i :: 0 <= i < |peers| ==> peers[i].peerId.Some?
    ensures d.finished ==> forall i :: 0 <= i < |peers| && peers[i].peerId != Some(self) ==> peers[i] in d.targets
    // one connection per listed peer other than `self`, in list order, up to the first
    // peer without an id, where the loop raises
    ensures d.finished <==> Named(peers) == |peers|
    ensures d.targets == Others(peers[..Named(peers)], self)
    ensures d.finished ==> d.targets == Others(peers, self)
  {
    if |peers| == 0 then
      assert peers[..0] == [];
      Dispatch([], true)
    else match peers[0].peerId
      case None =>
        assert peers[..0] == [];
        Dispatch([], false)
      case Some(id) =>
        var rest := DownloadPieces(peers[1..], self);
        var d := Dispatch((if id == self then [] else [peers[0]]) + rest.targets, rest.finished);
        DispatchStepReaches(peers, self, rest, d);
        DispatchStep(peers, self, rest, d);
        d
  }

  /** Which peers are reached, one named peer in front of the rest of the list. */
  lemma DispatchStepReaches(peers: seq<PeerView>, self: string, rest: Dispatch, d: Dispatch)
    requires |peers| > 0 && peers[0].peerId.Some?
    requires |rest.targets| <= |peers[1..]|
    requires forall t :: t in rest.targets ==> t in peers[1..] && t.peerId.Some? && t.peerId.value != self
    requires rest.finished <==> forall i :: 0 <= i < |peers[1..]| ==> peers[1..][i].peerId.Some?
    requires rest.finished ==> forall i :: 0 <= i < |peers[1..]| && peers[1..][i].peerId != Some(self) ==> peers[1..][i] in rest.targets
    requires d == Dispatch((if peers[0].peerId == Some(self) then [] else [peers[0]]) + rest.targets, rest.finished)
    ensures |d.targets| <= |peers|
    ensures forall t :: t in d.targets ==> t in peers && t.peerId.Some? && t.peerId.value != self
    ensures d.finished <==> forall i :: 0 <= i < |peers| ==> peers[i].peerId.Some?
    ensures d.finished ==> forall i :: 0 <= i < |peers| && peers[i].peerId != Some(self) ==> peers[i] in d.targets
  {
    assert forall i :: 1 <= i < |peers| ==> peers[i] == peers[1..][i - 1];
  }

  /** The order of the targets, one named peer in front of the rest of the list. */
  lemma DispatchStep(peers: seq<PeerView>, self: string, rest: Dispatch, d: Dispatch)
    requires |peers| > 0 && peers[0].peerId.Some?
    requires rest.targets == Others(peers[1..][..Named(peers[1..])], self)
    requires d.targets == (if peers[0].peerId == Some(self) then [] else [peers[0]]) + rest.targets
    ensures d.targets == Others(peers[..Named(peers)], self)
  {
    var t, k := peers[1..], Named(peers[1..]);
    assert peers[..Named(peers)] == ([peers[0]] + t)[..k + 1] by {
      assert Named(peers) == 1 + k;
      assert peers == [peers[0]] + t;
    }
    OthersInFront(peers[0], t, k, self);
  }

  /** Filtering a prefix of a list one element longer at the front. */
  lemma OthersInFront(p: PeerView, t: seq<PeerView>, k: nat, self: string)
    requires k <= |t|
    ensures Others(([p] + t)[..k + 1], self) == (if p.peerId == Some(self) then [] else [p]) + Others(t[..k], self)
  {
    var s := ([p] + t)[..k + 1];
    assert s[0] == p && s[1..] == t[..k];
  }

  /** The connections of `download_pieces`, one after another from the store `have`;
      `dial` gives the endpoint each peer's address reaches. */
  function DownloadAll(have: Bitfield, targets: seq<PeerView>, dial: PeerView -> Option<Remote>): (b: Bitfield)
    ensures OnlyGains(have, b)
    decreases |targets|
  {
    if |targets| == 0 then have
    else
      var have' := ConnectToPeer(have, dial(targets[0])).have;
      var b := DownloadAll(have', targets[1..], dial);
      OnlyGainsTransitive(have, have', b);
      b
  }

  /** A gain keeps a complete store complete. */
  lemma CompleteStaysComplete(b: Bitfield, b': Bitfield)
    requires OnlyGains(b, b') && IsComplete(b)
    ensures IsComplete(b')
  {
    forall i | 0 <= i < |b'| ensures Has(b', i) {
      OwnedStaysOwned(b, b', i);
    }
  }

  /** If any of the targets reaches a peer serving the whole file, the client ends
      up with the whole file. */
  lemma {:induction false} DownloadAllFromSeeder(have: Bitfield, targets: seq<PeerView>,
                                                 dial: PeerView -> Option<Remote>, seed: Bitfield, j: nat)
    requires j < |targets| && dial(targets[j]) == Some(Answering(seed))
    requires |seed| == |have| && IsComplete(seed)
    decreases |targets|
    ensures IsComplete(DownloadAll(have, targets, dial))
  {
    var have' := ConnectToPeer(have, dial(targets[0])).have;
    if j == 0 {
      DownloadFromServingPeer(have, seed);
      assert IsComplete(have') by {
        forall i | 0 <= i < |have'| ensures Has(have', i) {
          assert Has(seed, i);
        }
      }
      CompleteStaysComplete(have', DownloadAll(have', targets[1..], dial));
    } else {
      assert targets[1..][j - 1] == targets[j];
      DownloadAllFromSeeder(have', targets[1..], dial, seed, j - 1);
    }
  }

  /** The client's `started` announce, when accepted, is the tracker's `started` branch,
      and the client gets back that branch's peer list. */
  lemma StartedAnnounce(reg: Registry, ip: string, infoHash: string, peerId: string)
    requires |infoHash| > 0 && |peerId| > 0
    ensures var o := Started(reg, ip, peerId, PeerPort, infoHash);
            AnnounceToTracker(reg, ip, infoHash, peerId, "started") == (o.registry, Some(o.reply.value.body.peers.value))
  {
    AnnounceQueryAccepted(reg, ip, infoHash, peerId, "started");
  }

  /** The `started` reply lists the caller itself, with the address and port it registered. */
  lemma StartedListsCaller(reg: Registry, ip: string, infoHash: string, peerId: string)
    ensures View(Some(peerId), PeerEntry(ip, PeerPort, infoHash))
              in Started(reg, ip, peerId, PeerPort, infoHash).reply.value.body.peers.value
  {
    var o := Started(reg, ip, peerId, PeerPort, infoHash);
    var peers, m := o.reply.value.body.peers.value, ToMap(o.registry);
    StartedListsEveryPeer(reg, ip, peerId, PeerPort, infoHash);
    var e := PeerEntry(ip, PeerPort, infoHash);
    assert m[peerId] == e;
    var i :| 0 <= i < |peers| && peers[i] == View(Some(peerId), e);
  }

  /** `download_pieces` over a list whose every element carries a peer id gets through
      it, and reaches every listed peer other than the client itself. */
  lemma DispatchOverListed(peers: seq<PeerView>, self: string, m: map<string, PeerEntry>)
    requires forall i :: 0 <= i < |peers| ==> peers[i].peerId.Some?
    requires forall k :: k in m ==> View(Some(k), m[k]) in peers
    ensures var d := DownloadPieces(peers, self);
            && d.finished
            && (forall t :: t in d.targets ==> t.peerId != Some(self))
            && (forall k :: k in m && k != self ==> View(Some(k), m[k]) in d.targets)
  {
    var d := DownloadPieces(peers, self);
    forall k | k in m && k != self
      ensures View(Some(k), m[k]) in d.targets
    {
      var i :| 0 <= i < |peers| && peers[i] == View(Some(k), m[k]);
    }
  }

  /** After a `started` branch, `download_pieces` over the returned list gets through it,
      reaches every other registered peer, and never the caller itself. */
  lemma DispatchAfterStarted(reg: Registry, ip: string, infoHash: string, peerId: string)
    ensures var o := Started(reg, ip, peerId, PeerPort, infoHash);
            var peers, m := o.reply.value.body.peers.value, ToMap(o.registry);
            var d := DownloadPieces(peers, peerId);
            && d.finished
            && (forall t :: t in d.targets ==> t.peerId != Some(peerId))
            && (forall k :: k in m && k != peerId ==> View(Some(k), m[k]) in d.targets)
  {
    var o := Started(reg, ip, peerId, PeerPort, infoHash);
    var peers, m := o.reply.value.body.peers.value, ToMap(o.registry);
    StartedListsEveryPeer(reg, ip, peerId, PeerPort, infoHash);
    forall i | 0 <= i < |peers|
      ensures peers[i].peerId.Some?
    {
      assert peers[i] == View(Some(o.registry[i].0), o.registry[i].1);
    }
    DispatchOverListed(peers, peerId, m);
  }

  /** `all(have_pieces)`, the test `main` waits on before announcing completion. */
  function Finished(have: Bitfield): (done: bool)
    ensures done <==> IsComplete(have)
  {
    AllTruthyIffComplete(have);
    AllTruthy(have)
  }

  /** What one run of `main` leaves behind: the tracker's registry and the client's store;
      `announcedCompletion` tells whether the wait ended and `completed` went out. */
  datatype Run = Run(registry: Registry, have: Bitfield, announcedCompletion: bool)

  /** `main` for a client with the given identity, against a tracker holding `reg`.
      `None` is a run that raises: the tracker's handler failed or a listed peer had no id.
      With the connections run in sequence, a store that is incomplete after all of them
      stays incomplete, and the busy-wait never ends. */
  function Main(reg: Registry, ip: string, infoHash: string, peerId: string,
                dial: PeerView -> Option<Remote>): (r: Option<Run>)
    ensures r.Some? ==> |r.value.have| == TotalPieces && IsFlags(r.value.have)
    ensures r.Some? ==> (r.value.announcedCompletion <==> IsComplete(r.value.have))
  {
    var (reg', peers) := AnnounceToTracker(reg, ip, infoHash, peerId, "started");
    match peers
    case None => None
    case Some(peers) =>
      var d := DownloadPieces(peers, peerId);
      if !d.finished then None
      else
        var have := DownloadAll(Initial(TotalPieces), d.targets, dial);
        GainsOnFlags(Initial(TotalPieces), have);
        if Finished(have) then
          var (reg'', _) := AnnounceToTracker(reg', ip, infoHash, peerId, "completed");
          Some(Run(reg'', have, true))
        else Some(Run(reg', have, false))
  }

  /** A client that joins a tracker where a seeder of the file is registered, and whose
      connection to it reaches that seeder, downloads the whole file, announces completion,
      and stays registered with its own address. */
  lemma JoiningBesideSeederCompletes(reg: Registry, ip: string, infoHash: string, peerId: string,
                                     dial: PeerView -> Option<Remote>, seeder: string, seed: Bitfield)
    requires |infoHash| > 0 && |peerId| > 0 && seeder != peerId
    requires Lookup(reg, seeder).Some?
    requires dial(View(Some(seeder), Lookup(reg, seeder).value)) == Some(Answering(seed))
    requires |seed| == TotalPieces && IsComplete(seed)
    ensures var r := Main(reg, ip, infoHash, peerId, dial);
            && r.Some?
            && r.value.announcedCompletion
            && Lookup(r.value.registry, peerId) == Some(PeerEntry(ip, PeerPort, infoHash))
            && Lookup(r.value.registry, seeder) == Lookup(reg, seeder)
  {
    var (reg', peers) := AnnounceToTracker(reg, ip, infoHash, peerId, "started");
    StartedAnnounce(reg, ip, infoHash, peerId);
    DispatchAfterStarted(reg, ip, infoHash, peerId);
    var d := DownloadPieces(peers.value, peerId);
    assert Lookup(reg', seeder) == Lookup(reg, seeder);
    var t := View(Some(seeder), Lookup(reg, seeder).value);
    assert t in d.targets;
    var j :| 0 <= j < |d.targets| && d.targets[j] == t;
    DownloadAllFromSeeder(Initial(TotalPieces), d.targets, dial, seed, j);
    CompletedAnnounceYieldsNoPeers(reg', ip, infoHash, peerId);
  }
}

=== FILE: dict.dfy ===
/**
  Python's insertion-ordered `dict`, as a list of bindings whose keys are
  distinct, with the three operations the tracker uses and a map view.
 */
module Dict {
  import opened Wrappers

  /** No key is bound twice. */
  predicate DistinctKeys<K(==, !new), V>(r: seq<(K, V)>) {
    forall i, j :: 0 <= i < j < |r| ==> r[i].0 != r[j].0
  }


  /** The position of the first binding of `k`, if any. */
  function Find<K(==, !new), V>(r: seq<(K, V)>, k: K): (i: Option<nat>)
    ensures i.None? <==> forall j :: 0 <= j < |r| ==> r[j].0 != k
    ensures i.Some? ==> i.value < |r| && r[i.value].0 == k
    ensures i.Some? ==> forall j :: 0 <= j < i.value ==> r[j].0 != k
  {
    if |r| == 0 then None
    else if r[0].0 == k then Some(0)
    else match Find(r[1..], k)
      case None => None
      case Some(j) => Some(j + 1)
  }

  /** `d.get(k)` */
  function Lookup<K(==, !new), V>(r: seq<(K, V)>, k: K): (v: Option<V>)
    requires DistinctKeys(r)
    ensures v.None? <==> forall i :: 0 <= i < |r| ==> r[i].0 != k
    ensures forall i :: 0 <= i < |r| && r[i].0 == k ==> v == Some(r[i].1)
  {
    match Find(r, k)
    case None => None
    case Some(i) => Some(r[i].1)
  }

  /** The dict as a map from key to value. */
  function ToMap<K(==, !new), V>(r: seq<(K, V)>): (m: map<K, V>)
    requires DistinctKeys(r)
    ensures forall k :: k in m <==> Lookup(r, k).Some?
    ensures forall k :: k in m ==> Lookup(r, k) == Some(m[k])
  {
    map k | k in (set i | 0 <= i < |r| :: r[i].0) :: Lookup(r, k).value
  }

  /** `d[k] = v`: an existing key keeps its position, a new one goes last. */
  function Insert<K(==, !new), V>(r: seq<(K, V)>, k: K, v: V): (r': seq<(K, V)>)
    requires DistinctKeys(r)
    ensures DistinctKeys(r')
    ensures Lookup(r', k) == Some(v)
    ensures forall k' :: k' != k ==> Lookup(r', k') == Lookup(r, k')
    ensures |r'| == if Lookup(r, k).Some? then |r| else |r| + 1
    ensures forall i :: 0 <= i < |r| ==> r'[i].0 == r[i].0
    ensures Lookup(r, k).None? ==> r'[|r|] == (k, v)
  {
    match Find(r, k)
    case None =>
      var r' := r + [(k, v)];
      assert r'[|r|] == (k, v);
      assert forall k' :: k' != k ==> Lookup(r', k') == Lookup(r, k') by {
        forall k' | k' != k ensures Lookup(r', k') == Lookup(r, k') {
          if j :| 0 <= j < |r| && r[j].0 == k' {
            assert r'[j] == r[j];
          }
        }
      }
      r'
    case Some(i) =>
      var r' := r[i := (k, v)];
      assert r'[i] == (k, v);
      assert forall k' :: k' != k ==> Lookup(r', k') == Lookup(r, k') by {
        forall k' | k' != k ensures Lookup(r', k') == Lookup(r, k') {
          if j :| 0 <= j < |r| && r[j].0 == k' {
            assert r'[j] == r[j];
          }
        }
      }
      r'
  }

  /** `d.pop(k, None)`: removes `k` if present, keeping the order of the others. */
  function Remove<K(==, !new), V>(r: seq<(K, V)>, k: K): (r': seq<(K, V)>)
    requires DistinctKeys(r)
    ensures DistinctKeys(r')
    ensures Lookup(r', k) == None
    ensures forall k' :: k' != k ==> Lookup(r', k') == Lookup(r, k')
    ensures |r'| == if Lookup(r, k).Some? then |r| - 1 else |r|
  {
    match Find(r, k)
    case None => r
    case Some(i) =>
      var r' := r[..i] + r[i + 1..];
      assert forall j :: 0 <= j < |r'| ==> r'[j] == r[if j < i then j else j + 1];
      assert DistinctKeys(r') by {
        forall a, b | 0 <= a < b < |r'| ensures r'[a].0 != r'[b].0 {
          assert r'[a] == r[if a < i then a else a + 1] && r'[b] == r[if b < i then b else b + 1];
        }
      }
      assert forall j :: 0 <= j < |r'| ==> r'[j].0 != k by {
        forall j | 0 <= j < |r'| ensures r'[j].0 != k {
          assert r'[j] == r[if j < i then j else j + 1];
        }
      }
      assert forall k' :: k' != k ==> Lookup(r', k') == Lookup(r, k') by {
        forall k' | k' != k ensures Lookup(r', k') == Lookup(r, k') {
          if j :| 0 <= j < |r| && r[j].0 == k' {
            assert j != i;
            if j < i { assert r'[j] == r[j]; } else { assert r'[j - 1] == r[j]; }
          }
        }
      }
      r'
  }

  /** The bindings of `r` whose key is not `k`, in their order. */
  function Without<K(==, !new), V>(r: seq<(K, V)>, k: K): (r': seq<(K, V)>)
    ensures |r'| <= |r|
  {
    if |r| == 0 then [] else (if r[0].0 == k then [] else [r[0]]) + Without(r[1..], k)
  }

  lemma {:induction false} WithoutAbsent<K(!new), V>(r: seq<(K, V)>, k: K)
    requires forall j :: 0 <= j < |r| ==> r[j].0 != k
    ensures Without(r, k) == r
  {
    if |r| > 0 {
      WithoutAbsent(r[1..], k);
      assert [r[0]] + r[1..] == r;
    }
  }

  lemma {:induction false} WithoutAt<K(!new), V>(r: seq<(K, V)>, i: nat)
    requires DistinctKeys(r) && i < |r|
    ensures Without(r, r[i].0) == r[..i] + r[i + 1..]
  {
    var k, t := r[i].0, r[1..];
    if i == 0 {
      forall j | 0 <= j < |t| ensures t[j].0 != k {
        assert t[j] == r[j + 1];
      }
      WithoutAbsent(t, k);
      assert r[..0] + r[1..] == t;
    } else {
      assert DistinctKeys(t) by {
        forall a, b | 0 <= a < b < |t| ensures t[a].0 != t[b].0 {
          assert t[a] == r[a + 1] && t[b] == r[b + 1];
        }
      }
      assert t[i - 1] == r[i];
      WithoutAt(t, i - 1);
      assert t[..i - 1] == r[1..i] && t[i..] == r[i + 1..];
      assert [r[0]] + r[1..i] == r[..i];
    }
  }

  /** `pop` keeps the other bindings in insertion order: it filters out the one key. */
  lemma RemoveKeepsOrder<K(!new), V>(r: seq<(K, V)>, k: K)
    requires DistinctKeys(r)
    ensures Remove(r, k) == Without(r, k)
  {
    match Find(r, k)
    case None => WithoutAbsent(r, k);
    case Some(i) => WithoutAt(r, i);
  }

  /** `ToMap` is the one map that agrees with every lookup. */
  lemma ToMapUnique<K(!new), V>(r: seq<(K, V)>, m: map<K, V>)
    requires DistinctKeys(r)
    requires forall k :: k in m <==> Lookup(r, k).Some?
    requires forall k :: k in m ==> Lookup(r, k) == Some(m[k])
    ensures ToMap(r) == m
  {
    assert forall k :: k in ToMap(r) <==> k in m;
  }

  /** `ToMap` after an insert is the map update. */
  lemma InsertIsMapUpdate<K(!new), V>(r: seq<(K, V)>, k: K, v: V)
    requires DistinctKeys(r)
    ensures ToMap(Insert(r, k, v)) == ToMap(r)[k := v]
  {
    ToMapUnique(Insert(r, k, v), ToMap(r)[k := v]);
  }

  /** `ToMap` after a removal is the map minus that key. */
  lemma RemoveIsMapRemoval<K(!new), V>(r: seq<(K, V)>, k: K)
    requires DistinctKeys(r)
    ensures ToMap(Remove(r, k)) == ToMap(r) - {k}
  {
    ToMapUnique(Remove(r, k), ToMap(r) - {k});
  }

  /** One map entry per binding: a dict never holds a key twice. */
  lemma {:induction false} ToMapSize<K(!new), V>(r: seq<(K, V)>)
    requires DistinctKeys(r)
    ensures |ToMap(r)| == |r|
  {
    if |r| > 0 {
      var n := |r| - 1;
      var front := r[..n];
      var k, v := r[n].0, r[n].1;
      assert DistinctKeys(front) && Find(front, k).None? && r == front + [(k, v)] by {
        assert forall i :: 0 <= i < n ==> front[i] == r[i];
        assert r == front + [r[n]];
      }
      assert k !in ToMap(front) && |ToMap(front)| == n by {
        ToMapSize(front);
      }
      assert ToMap(r) == ToMap(front)[k := v] by {
        assert r == Insert(front, k, v);
        InsertIsMapUpdate(front, k, v);
      }
    }
  }

  /** Every key of the map view sits at some position of the list, with its value. */
  lemma ToMapAt<K(!new), V>(r: seq<(K, V)>, k: K)
    requires DistinctKeys(r) && k in ToMap(r)
    ensures exists i :: 0 <= i < |r| && r[i] == (k, ToMap(r)[k])
  {
    var i :| 0 <= i < |r| && r[i].0 == k;
    assert r[i] == (k, r[i].1);
  }
}

=== FILE: downloader.dfy ===
/**
  The downloading side of a peer: one outbound connection that walks the local
  bitfield in index order, requests every piece still missing when it is
  inspected, and applies each reply (`connect_to_peer`).
 */
module Downloader {
  import opened Wrappers
  import opened PyText
  import opened PieceStore
  import opened Wire
  import opened PieceServer

  /** The remote end of one connection as the scan sees it: what `recv` returns
      after a request has been sent, or `None` when `sendall` or `recv` raised. */
  type Remote = string -> Option<string>

  /** What the client makes of what it read after one request. */
  datatype Heard =
    | Lost                  // `sendall` or `recv` raised
    | Garbled(fault: Fault) // a `PIECE_DATA` reply that does not unpack into an integer
    | Piece(index: int)     // `PIECE_DATA:<index>`
    | Miss                  // anything else: `PIECE_NOT_AVAILABLE`, an empty read, ...

  /** The client's reading of one reply: `data.startswith('PIECE_DATA')`, then the
      same strip-split-int parsing the server applies to requests. */
  function Hear(reply: Option<string>): (h: Heard)
    ensures h.Lost? <==> reply.None?
    ensures reply.Some? && !StartsWith(reply.value, DataTag) ==> h == Miss
    ensures h.Piece? || h.Garbled? ==> reply.Some? && StartsWith(reply.value, DataTag)
  {
    match reply
    case None => Lost
    case Some(text) =>
      if !StartsWith(text, DataTag) then Miss
      else
        match ParseIndex(text)
        case Err(f) => Garbled(f)
        case Ok(k) => Piece(k)
  }

  /** A data reply is heard as the index written in it. */
  lemma HearData(k: int)
    ensures Hear(Some(Data(k))) == Piece(k)
  {
    ParseData(k);
  }

  /** The refusal and an empty read are both heard as a miss. */
  lemma HearRefusal()
    ensures Hear(Some(NotAvailable)) == Miss
    ensures Hear(Some("")) == Miss
  {
    NotAvailableIsNotData();
  }

  /** The heard outcome makes the loop raise: a lost connection, a garbled reply,
      or a data index outside `-n..n-1` (`IndexError` on `have_pieces[k] = 1`). */
  predicate Raises(h: Heard, n: nat) {
    h.Lost? || h.Garbled? || (h.Piece? && Resolve(n, h.index).None?)
  }

  /** The store after acting on one heard reply, or `None` when that raised. */
  function Apply(have: Bitfield, h: Heard): (r: Option<Bitfield>)
    ensures r.None? <==> Raises(h, |have|)
    ensures r.Some? ==> OnlyGains(have, r.value)
    ensures h.Miss? ==> r == Some(have)
    ensures forall j :: 0 <= j < |have| && r.Some? && r.value[j] != have[j] ==>
              h.Piece? && Resolve(|have|, h.index) == Some(j)
  {
    match h
    case Piece(k) =>
      (match Resolve(|have|, k)
       case None => None
       case Some(j) => Some(MarkOwned(have, j)))
    case Miss => Some(have)
    case Lost => None
    case Garbled(_) => None
  }

  /** A data reply marks the index written in the reply, resolved the Python way,
      whatever index was requested; `PIECE_DATA:-1` marks the last piece. */
  lemma ApplyDataMarksNamedIndex(have: Bitfield, k: int)
    requires -|have| <= k < |have|
    ensures Apply(have, Hear(Some(Data(k)))) == Some(MarkOwned(have, if k >= 0 then k else |have| + k))
  {
    HearData(k);
  }

  /** A data reply naming an index outside `-n..n-1` raises. */
  lemma ApplyDataOutOfRange(have: Bitfield, k: int)
    requires k >= |have| || k < -|have|
    ensures Apply(have, Hear(Some(Data(k)))) == None
  {
    HearData(k);
  }

  /** Where a scan ended: the final store, the indices requested in order,
      the index after the last one inspected, and whether it stopped on a raise. */
  datatype ScanResult = ScanResult(have: Bitfield, requested: seq<nat>, reached: nat, aborted: bool)

  /** `s` lists indices from `lo` up to, not including, `hi`, each once, in increasing order. */
  predicate Ascending(s: seq<nat>, lo: nat, hi: nat) {
    && (forall k :: 0 <= k < |s| ==> lo <= s[k] < hi)
    && (forall k, l :: 0 <= k < l < |s| ==> s[k] < s[l])
  }

  /** Every index in `s` is a piece missing from `have`. */
  predicate AllMissing(have: Bitfield, s: seq<nat>) {
    forall k :: 0 <= k < |s| ==> s[k] < |have| && have[s[k]] == 0
  }

  lemma AscendingCons(i: nat, s: seq<nat>, lo: nat, hi: nat)
    requires lo <= i < hi && Ascending(s, i + 1, hi)
    ensures Ascending([i] + s, lo, hi)
  {
  }

  lemma AscendingWiden(s: seq<nat>, lo: nat, lo': nat, hi: nat)
    requires lo <= lo' && Ascending(s, lo', hi)
    ensures Ascending(s, lo, hi)
  {
  }

  lemma AllMissingCons(have: Bitfield, have': Bitfield, i: nat, s: seq<nat>)
    requires i < |have| && have[i] == 0 && OnlyGains(have, have') && AllMissing(have', s)
    ensures AllMissing(have, [i] + s)
  {
    forall k | 0 <= k < |[i] + s| ensures ([i] + s)[k] < |have| && have[([i] + s)[k]] == 0 {
      if k > 0 {
        assert ([i] + s)[k] == s[k - 1];
      }
    }
  }

  function Last(s: seq<nat>): nat
    requires |s| > 0
  {
    s[|s| - 1]
  }

  /** What the client hears after requesting each index, for one connection. */
  type Hearing = nat -> Heard

  /** The loop `for i in range(total_pieces)` from index `i` on, with
      `total_pieces == |have|`: an owned index is skipped, a missing one is
      requested and what is heard is applied before moving on. */
  function Scan(have: Bitfield, i: nat, heard: Hearing): (r: ScanResult)
    requires i <= |have|
    decreases |have| - i
    ensures OnlyGains(have, r.have)
    ensures i <= r.reached <= |have|
    ensures !r.aborted ==> r.reached == |have|
    ensures Ascending(r.requested, i, r.reached)
    ensures AllMissing(have, r.requested)
  {
    if i == |have| then ScanResult(have, [], |have|, false)
    else if Has(have, i) then
      var rest := Scan(have, i + 1, heard);
      AscendingWiden(rest.requested, i, i + 1, rest.reached);
      rest
    else
      match Apply(have, heard(i))
      case None => ScanResult(have, [i], i + 1, true)
      case Some(have') =>
        var rest := Scan(have', i + 1, heard);
        OnlyGainsTransitive(have, have', rest.have);
        AscendingCons(i, rest.requested, i, rest.reached);
        AllMissingCons(have, have', i, rest.requested);
        ScanResult(rest.have, [i] + rest.requested, rest.reached, rest.aborted)
  }

  /** Every flag of `have` that differs in `r.have` resolves from the index of a data
      reply heard after one of the requests in `r`. */
  ghost predicate ChangesNamed(have: Bitfield, r: ScanResult, heard: Hearing) {
    forall j :: 0 <= j < |have| && j < |r.have| && r.have[j] != have[j] ==>
      exists m :: 0 <= m < |r.requested| && heard(r.requested[m]).Piece?
                  && Resolve(|have|, heard(r.requested[m]).index) == Some(j)
  }

  /** One requested index in front of a scan that changed only named flags. */
  lemma ChangesNamedCons(have: Bitfield, have': Bitfield, i: nat, rest: ScanResult, heard: Hearing)
    requires Apply(have, heard(i)) == Some(have')
    requires ChangesNamed(have', rest, heard)
    ensures ChangesNamed(have, ScanResult(rest.have, [i] + rest.requested, rest.reached, rest.aborted), heard)
  {
    var r := ScanResult(rest.have, [i] + rest.requested, rest.reached, rest.aborted);
    forall j | 0 <= j < |have| && j < |r.have| && r.have[j] != have[j]
      ensures exists m :: 0 <= m < |r.requested| && heard(r.requested[m]).Piece?
                          && Resolve(|have|, heard(r.requested[m]).index) == Some(j)
    {
      if have'[j] != have[j] {
        assert r.requested[0] == i;
      } else {
        var m :| 0 <= m < |rest.requested| && heard(rest.requested[m]).Piece?
                 && Resolve(|have'|, heard(rest.requested[m]).index) == Some(j);
        assert r.requested[m + 1] == rest.requested[m];
      }
    }
  }

  /** Nothing changes but what some reply named: every flag that differs at the end
      was marked by a data reply, heard after one of the requests the scan sent,
      whose index resolves to that flag. */
  lemma {:induction false} ScanChangesOnlyNamedIndices(have: Bitfield, i: nat, heard: Hearing)
    requires i <= |have|
    decreases |have| - i
    ensures ChangesNamed(have, Scan(have, i, heard), heard)
  {
    if i < |have| {
      if Has(have, i) {
        ScanChangesOnlyNamedIndices(have, i + 1, heard);
        assert Scan(have, i, heard) == Scan(have, i + 1, heard);
      } else if Apply(have, heard(i)).Some? {
        var have' := Apply(have, heard(i)).value;
        ScanChangesOnlyNamedIndices(have', i + 1, heard);
        ChangesNamedCons(have, have', i, Scan(have', i + 1, heard), heard);
      }
    }
  }

  /** If `r` aborted, it did so on its last request, at the index before where it
      stopped, and what was heard after that request raises. */
  ghost predicate AbortedAtLast(have: Bitfield, r: ScanResult, heard: Hearing) {
    r.aborted ==>
      && |r.requested| > 0
      && Last(r.requested) == r.reached - 1
      && Raises(heard(Last(r.requested)), |have|)
  }

  /** One requested index that did not raise, in front of the rest of a scan. */
  lemma AbortedAtLastCons(have: Bitfield, have': Bitfield, i: nat, rest: ScanResult, heard: Hearing)
    requires Apply(have, heard(i)) == Some(have')
    requires AbortedAtLast(have', rest, heard)
    ensures AbortedAtLast(have, ScanResult(rest.have, [i] + rest.requested, rest.reached, rest.aborted), heard)
  {
    if rest.aborted {
      assert Last([i] + rest.requested) == Last(rest.requested);
    }
  }

  /** An aborted scan stopped on its last request, and what was heard after it raised. */
  lemma {:induction false} ScanAbortsOnRaise(have: Bitfield, i: nat, heard: Hearing)
    requires i <= |have|
    decreases |have| - i
    ensures AbortedAtLast(have, Scan(have, i, heard), heard)
  {
    if i < |have| {
      if Has(have, i) {
        ScanAbortsOnRaise(have, i + 1, heard);
        assert Scan(have, i, heard) == Scan(have, i + 1, heard);
      } else if Apply(have, heard(i)).Some? {
        var have' := Apply(have, heard(i)).value;
        ScanAbortsOnRaise(have', i + 1, heard);
        AbortedAtLastCons(have, have', i, Scan(have', i + 1, heard), heard);
      }
    }
  }

  /** No request but an aborting scan's last one had a reply that raised. */
  lemma {:induction false} ScanRaisesOnlyAtEnd(have: Bitfield, i: nat, heard: Hearing)
    requires i <= |have|
    decreases |have| - i
    ensures forall m ::
              (0 <= m < |Scan(have, i, heard).requested| &&
               (m < |Scan(have, i, heard).requested| - 1 || !Scan(have, i, heard).aborted))
              ==> !Raises(heard(Scan(have, i, heard).requested[m]), |have|)
  {
    var r := Scan(have, i, heard);
    if i < |have| {
      if Has(have, i) {
        ScanRaisesOnlyAtEnd(have, i + 1, heard);
      } else if Apply(have, heard(i)).Some? {
        var have' := Apply(have, heard(i)).value;
        var rest := Scan(have', i + 1, heard);
        ScanRaisesOnlyAtEnd(have', i + 1, heard);
        assert r.requested == [i] + rest.requested && r.aborted == rest.aborted;
        forall m | 0 <= m < |r.requested| && (m < |r.requested| - 1 || !r.aborted)
          ensures !Raises(heard(r.requested[m]), |have|)
        {
          if m > 0 {
            assert r.requested[m] == rest.requested[m - 1];
          }
        }
      }
    }
  }

  /** Every index the scan inspected and did not request was owned when inspected, and still is. */
  lemma {:induction false} ScanSkipsOnlyOwned(have: Bitfield, i: nat, heard: Hearing)
    requires i <= |have|
    decreases |have| - i
    ensures forall j :: i <= j < Scan(have, i, heard).reached && j !in Scan(have, i, heard).requested ==>
              Has(Scan(have, i, heard).have, j)
  {
    var r := Scan(have, i, heard);
    if i < |have| {
      if Has(have, i) {
        ScanSkipsOnlyOwned(have, i + 1, heard);
        assert r == Scan(have, i + 1, heard);
        OwnedStaysOwned(have, r.have, i);
      } else if Apply(have, heard(i)).Some? {
        var have' := Apply(have, heard(i)).value;
        var rest := Scan(have', i + 1, heard);
        ScanSkipsOnlyOwned(have', i + 1, heard);
        assert r.have == rest.have && r.reached == rest.reached && r.requested == [i] + rest.requested;
        forall j | i <= j < r.reached && j !in r.requested ensures Has(r.have, j) {
          assert j != i && j !in rest.requested;
        }
      }
    }
  }

  /** What was heard after the request for `q` marks flag `j` of an `n`-piece store. */
  predicate Marks(n: nat, heard: Hearing, q: nat, j: nat) {
    heard(q).Piece? && Resolve(n, heard(q).index) == Some(j)
  }

  /** Some request of `req` for an index below `j` was answered with data that marks `j`:
      by the time the scan reaches `j`, it is owned. */
  ghost predicate NamedBelow(n: nat, heard: Hearing, req: seq<nat>, j: nat) {
    exists p :: 0 <= p < |req| && req[p] < j && Marks(n, heard, req[p], j)
  }

  /** Over the indices `i <= j < r.reached` the scan inspected, it requested exactly those
      missing at the start that no reply to an earlier request had marked, which are the
      ones missing at the moment they were inspected. */
  ghost predicate RequestsExactlyMissing(have: Bitfield, i: nat, r: ScanResult, heard: Hearing) {
    && r.reached <= |have|
    && forall j :: i <= j < r.reached ==>
         (j in r.requested <==> !Has(have, j) && !NamedBelow(|have|, heard, r.requested, j))
  }

  /** A missing index `i` in front of the rest of a scan, which went on from the store
      that the reply for `i` left. */
  lemma RequestsExactlyMissingCons(have: Bitfield, have': Bitfield, i: nat, rest: ScanResult, heard: Hearing)
    requires i < |have| && !Has(have, i)
    requires Apply(have, heard(i)) == Some(have')
    requires Ascending(rest.requested, i + 1, rest.reached)
    requires RequestsExactlyMissing(have', i + 1, rest, heard)
    ensures RequestsExactlyMissing(have, i, ScanResult(rest.have, [i] + rest.requested, rest.reached, rest.aborted), heard)
  {
    var n, req := |have|, [i] + rest.requested;
    assert |have'| == n;
    forall j | i <= j < rest.reached
      ensures j in req <==> !Has(have, j) && !NamedBelow(n, heard, req, j)
    {
      if j == i {
        assert req[0] == i;
        assert !NamedBelow(n, heard, req, j) by {
          forall p | 0 <= p < |req| ensures req[p] >= i {
            if p > 0 { assert req[p] == rest.requested[p - 1]; }
          }
        }
      } else {
        assert j in req <==> j in rest.requested;
        assert Has(have', j) <==> Has(have, j) || Marks(n, heard, i, j);
        NamedBelowCons(n, heard, i, rest.requested, j);
      }
    }
  }

  /** A request for `i` below `j` in front of the others names `j` when it or one of them does. */
  lemma NamedBelowCons(n: nat, heard: Hearing, i: nat, req: seq<nat>, j: nat)
    requires i < j
    ensures NamedBelow(n, heard, [i] + req, j) <==> Marks(n, heard, i, j) || NamedBelow(n, heard, req, j)
  {
    var req' := [i] + req;
    if NamedBelow(n, heard, req', j) && !Marks(n, heard, i, j) {
      var p :| 0 <= p < |req'| && req'[p] < j && Marks(n, heard, req'[p], j);
      assert p > 0 && req'[p] == req[p - 1];
    }
    if NamedBelow(n, heard, req, j) {
      var p :| 0 <= p < |req| && req[p] < j && Marks(n, heard, req[p], j);
      assert req'[p + 1] == req[p];
    }
    if Marks(n, heard, i, j) {
      assert req'[0] == i;
    }
  }

  /** An owned index `i` in front of the rest of a scan from the same store. */
  lemma RequestsExactlyMissingSkip(have: Bitfield, i: nat, rest: ScanResult, heard: Hearing)
    requires i < |have| && Has(have, i)
    requires Ascending(rest.requested, i + 1, rest.reached)
    requires RequestsExactlyMissing(have, i + 1, rest, heard)
    ensures RequestsExactlyMissing(have, i, rest, heard)
  {
    assert i !in rest.requested;
  }

  /** `connect_to_peer` requests an index exactly when its flag is 0 at the moment the
      loop reaches it: missing at the start, and not marked meanwhile by the index named
      in the reply to an earlier request. */
  lemma {:induction false} ScanRequestsExactlyMissing(have: Bitfield, i: nat, heard: Hearing)
    requires i <= |have|
    decreases |have| - i
    ensures RequestsExactlyMissing(have, i, Scan(have, i, heard), heard)
  {
    if i < |have| {
      if Has(have, i) {
        ScanRequestsExactlyMissing(have, i + 1, heard);
        assert Scan(have, i, heard) == Scan(have, i + 1, heard);
        RequestsExactlyMissingSkip(have, i, Scan(have, i + 1, heard), heard);
      } else if Apply(have, heard(i)).Some? {
        var have' := Apply(have, heard(i)).value;
        ScanRequestsExactlyMissing(have', i + 1, heard);
        RequestsExactlyMissingCons(have, have', i, Scan(have', i + 1, heard), heard);
      } else {
        var r := Scan(have, i, heard);
        assert r.requested == [i] && r.reached == i + 1;
        assert !NamedBelow(|have|, heard, r.requested, i);
      }
    }
  }

  /** The converse of `ChangesNamed`: every flag that the reply to one of the requests in
      `r` marked is owned at the end, except after the reply that made an aborted scan raise. */
  ghost predicate KeepsNamed(have: Bitfield, r: ScanResult, heard: Hearing) {
    && |r.have| == |have|
    && forall m: int, j: nat {:trigger Marks(|have|, heard, r.requested[m], j)} ::
         0 <= m < |r.requested| && (m < |r.requested| - 1 || !r.aborted) && Marks(|have|, heard, r.requested[m], j)
         ==> j < |r.have| && Has(r.have, j)
  }

  /** A requested index whose reply did not raise, in front of the rest of a scan. */
  lemma KeepsNamedCons(have: Bitfield, have': Bitfield, i: nat, rest: ScanResult, heard: Hearing)
    requires Apply(have, heard(i)) == Some(have')
    requires OnlyGains(have', rest.have)
    requires KeepsNamed(have', rest, heard)
    ensures KeepsNamed(have, ScanResult(rest.have, [i] + rest.requested, rest.reached, rest.aborted), heard)
  {
    var r := ScanResult(rest.have, [i] + rest.requested, rest.reached, rest.aborted);
    assert |rest.have| == |have'| == |have|;
    forall j: nat | Marks(|have|, heard, i, j) ensures j < |rest.have| && Has(rest.have, j) {
      assert have' == MarkOwned(have, j);
      OwnedStaysOwned(have', rest.have, j);
    }
    forall m: int, j: nat | 0 <= m < |r.requested| && (m < |r.requested| - 1 || !r.aborted) && Marks(|have|, heard, r.requested[m], j)
      ensures j < |r.have| && Has(r.have, j)
    {
      if m > 0 {
        assert r.requested[m] == rest.requested[m - 1];
      }
    }
  }

  /** What a reply marks stays marked: the flag named by the data reply to any request
      of the scan, bar the one an abort stopped at, is owned at the end. */
  lemma {:induction false} ScanKeepsNamed(have: Bitfield, i: nat, heard: Hearing)
    requires i <= |have|
    decreases |have| - i
    ensures KeepsNamed(have, Scan(have, i, heard), heard)
  {
    if i < |have| {
      if Has(have, i) {
        ScanKeepsNamed(have, i + 1, heard);
        assert Scan(have, i, heard) == Scan(have, i + 1, heard);
      } else if Apply(have, heard(i)).Some? {
        var have' := Apply(have, heard(i)).value;
        ScanKeepsNamed(have', i + 1, heard);
        KeepsNamedCons(have, have', i, Scan(have', i + 1, heard), heard);
      }
    }
  }

  /** What a peer that owns the pieces flagged in `other` is heard to answer. */
  ghost predicate HeardFromOwner(heard: Hearing, other: Bitfield) {
    forall j :: 0 <= j < |other| ==> heard(j) == if other[j] != 0 then Piece(j) else Miss
  }

  /** The outcome of scanning from `i` on against an honest owner of `other`:
      nothing aborted, flags before `i` untouched, from `i` on owned where either side
      owned, and requested exactly where missing locally. */
  ghost predicate OwnerOutcome(have: Bitfield, other: Bitfield, i: nat, r: ScanResult) {
    && !r.aborted
    && |r.have| == |have| == |other|
    && (forall j :: 0 <= j < i && j < |have| ==> r.have[j] == have[j])
    && (forall j :: i <= j < |have| ==> (Has(r.have, j) <==> Has(have, j) || Has(other, j)))
    && (forall j :: i <= j < |have| ==> (j in r.requested <==> !Has(have, j)))
  }

  /** A missing index `i` in front of the rest of a scan against an honest owner. */
  lemma OwnerOutcomeCons(have: Bitfield, other: Bitfield, i: nat, rest: ScanResult)
    requires |other| == |have| && i < |have| && !Has(have, i)
    requires OwnerOutcome(if other[i] != 0 then MarkOwned(have, i) else have, other, i + 1, rest)
    ensures OwnerOutcome(have, other, i, ScanResult(rest.have, [i] + rest.requested, rest.reached, rest.aborted))
  {
    var have' := if other[i] != 0 then MarkOwned(have, i) else have;
    var r := ScanResult(rest.have, [i] + rest.requested, rest.reached, rest.aborted);
    forall j | i <= j < |have| ensures j in r.requested <==> !Has(have, j) {
      if j > i {
        assert have'[j] == have[j];
        assert j in r.requested <==> j in rest.requested;
      }
    }
  }

  /** An owned index `i` in front of the rest of a scan against an honest owner. */
  lemma OwnerOutcomeSkip(have: Bitfield, other: Bitfield, i: nat, rest: ScanResult)
    requires |other| == |have| && i < |have| && Has(have, i)
    requires OwnerOutcome(have, other, i + 1, rest)
    requires OnlyGains(have, rest.have) && i !in rest.requested
    ensures OwnerOutcome(have, other, i, rest)
  {
    OwnedStaysOwned(have, rest.have, i);
  }

  /** Downloading from a peer of the same file that answers honestly: the scan never
      aborts, requests exactly the indices missing locally, and ends owning every
      piece either side owned. */
  lemma {:induction false} ScanAgainstOwner(have: Bitfield, other: Bitfield, i: nat, heard: Hearing)
    requires |other| == |have| && i <= |have|
    requires HeardFromOwner(heard, other)
    decreases |have| - i
    ensures OwnerOutcome(have, other, i, Scan(have, i, heard))
  {
    if i < |have| {
      if Has(have, i) {
        ScanAgainstOwner(have, other, i + 1, heard);
        var rest := Scan(have, i + 1, heard);
        assert i !in rest.requested;
        OwnerOutcomeSkip(have, other, i, rest);
      } else {
        var have' := if other[i] != 0 then MarkOwned(have, i) else have;
        assert Apply(have, heard(i)) == Some(have');
        ScanAgainstOwner(have', other, i + 1, heard);
        OwnerOutcomeCons(have, other, i, Scan(have', i + 1, heard));
      }
    }
  }

  /** What the client hears from `remote` after each request it sends. */
  function HearingFrom(remote: Remote): Hearing {
    (i: nat) => Hear(remote(Request(i)))
  }

  /** `connect_to_peer`: `None` is an endpoint whose `connect` raised. */
  function ConnectToPeer(have: Bitfield, peer: Option<Remote>): (r: ScanResult)
    ensures OnlyGains(have, r.have)
    ensures peer.None? ==> r.have == have && r.requested == [] && r.aborted
    ensures Ascending(r.requested, 0, |have|) && AllMissing(have, r.requested)
    ensures peer.Some? ==> RequestsExactlyMissing(have, 0, r, HearingFrom(peer.value))
    ensures peer.Some? ==> ChangesNamed(have, r, HearingFrom(peer.value)) && KeepsNamed(have, r, HearingFrom(peer.value))
  {
    match peer
    case None => ScanResult(have, [], 0, true)
    case Some(remote) =>
      ScanRequestsExactlyMissing(have, 0, HearingFrom(remote));
      ScanChangesOnlyNamedIndices(have, 0, HearingFrom(remote));
      ScanKeepsNamed(have, 0, HearingFrom(remote));
      Scan(have, 0, HearingFrom(remote))
  }

  /** A remote that runs the serving loop over its own store `other`: it answers what
      `Serve` sends; when `Serve` sends nothing the client reads nothing. */
  function Answering(other: Bitfield): Remote {
    (m: string) => match Serve(other, m) {
      case Send(reply) => Some(reply)
      case _ => Some("")
    }
  }

  /** The serving loop, asked for any of its indices, is heard as an honest owner. */
  lemma AnsweringIsHeardAsOwner(other: Bitfield)
    ensures HeardFromOwner(HearingFrom(Answering(other)), other)
  {
    forall j | 0 <= j < |other|
      ensures HearingFrom(Answering(other))(j) == if other[j] != 0 then Piece(j) else Miss
    {
      ServeAnswersRequest(other, j);
      HearData(j);
      HearRefusal();
    }
  }

  /** One connection to a peer serving the same number of pieces leaves the local
      store owning exactly the pieces either side owned, having asked only for the missing ones. */
  lemma DownloadFromServingPeer(have: Bitfield, other: Bitfield)
    requires |other| == |have|
    ensures var r := ConnectToPeer(have, Some(Answering(other)));
      && !r.aborted
      && (forall j :: 0 <= j < |have| ==> (Has(r.have, j) <==> Has(have, j) || Has(other, j)))
      && (forall j :: 0 <= j < |have| ==> (j in r.requested <==> !Has(have, j)))
  {
    AnsweringIsHeardAsOwner(other);
    ScanAgainstOwner(have, other, 0, HearingFrom(Answering(other)));
  }

  /** Two peers of a four-piece file, A owning pieces 0 and 1 and B owning 2 and 3:
      after A downloads from B and B from A, both own every piece. */
  lemma TwoPeersComplete()
    ensures IsComplete(ConnectToPeer([1, 1, 0, 0], Some(Answering([0, 0, 1, 1]))).have)
    ensures IsComplete(ConnectToPeer([0, 0, 1, 1], Some(Answering([1, 1, 0, 0]))).have)
  {
    ServingPeerFillsGaps([1, 1, 0, 0], [0, 0, 1, 1]);
    ServingPeerFillsGaps([0, 0, 1, 1], [1, 1, 0, 0]);
  }

  /** Between them, the two stores own every piece. */
  lemma ServingPeerFillsGaps(have: Bitfield, other: Bitfield)
    requires |other| == |have|
    requires forall j :: 0 <= j < |have| ==> Has(have, j) || Has(other, j)
    ensures IsComplete(ConnectToPeer(have, Some(Answering(other))).have)
  {
    DownloadFromServingPeer(have, other);
  }

  /** The client marks the index the reply names, not the index it asked for.
      If every request on a three-piece scan is answered `PIECE_DATA:2`, the scan asks
      for 0 and 1, marks only 2, then skips 2 as owned, and ends without piece 0 or 1. */
  lemma {:induction false} ScanHeedsNamedIndex(heard: Hearing)
    requires forall j :: heard(j) == Piece(2)
    ensures Scan([0, 0, 0], 0, heard) == ScanResult([0, 0, 1], [0, 1], 3, false)
  {
    assert heard(0) == Piece(2) && heard(1) == Piece(2);
    assert MarkOwned([0, 0, 0], 2) == [0, 0, 1];
    assert MarkOwned([0, 0, 1], 2) == [0, 0, 1];
    assert Scan([0, 0, 1], 2, heard) == ScanResult([0, 0, 1], [], 3, false);
    assert Scan([0, 0, 1], 1, heard) == ScanResult([0, 0, 1], [1], 3, false);
  }

  /** The same on the wire: a remote whose every reply is `PIECE_DATA:2`. */
  lemma ReplyIndexNotLoopIndex()
    ensures ConnectToPeer([0, 0, 0], Some((m: string) => Some(Data(2))))
         == ScanResult([0, 0, 1], [0, 1], 3, false)
  {
    var heard := HearingFrom((m: string) => Some(Data(2)));
    HearData(2);
    assert forall j :: heard(j) == Piece(2);
    ScanHeedsNamedIndex(heard);
  }
}

=== FILE: piece_server.dfy ===
/**
  The serving side of a peer: how one inbound connection answers the messages
  it reads (`handle_peer_connection`). Serving reads the bitfield and never
  writes it, so the bitfield is an argument and not a result.
 */
module PieceServer {
  import opened Wrappers
  import opened PyText
  import opened PieceStore
  import opened Wire

  /** What the handler does with one received message. */
  datatype Action =
    | Close               // empty read: the peer hung up, leave the loop
    | Send(reply: string) // answer with `reply`
    | Ignore              // `HAVE_PIECE` or any other text: no answer, keep reading
    | Fail(fault: Fault)  // raised: caught by the handler, connection closed

  /** `k` names, under Python indexing, a piece the store owns. */
  predicate Owns(have: Bitfield, k: int) {
    Resolve(|have|, k).Some? && Has(have, Resolve(|have|, k).value)
  }

  /** A reply the server may legitimately give: a refusal, or data for an owned index. */
  ghost predicate SoundReply(have: Bitfield, reply: string) {
    reply == NotAvailable || exists k :: reply == Data(k) && Owns(have, k)
  }

  /** One pass of the handler loop on the message `msg`. */
  function Serve(have: Bitfield, msg: string): (a: Action)
    ensures a.Close? <==> msg == ""
    ensures a.Send? || a.Fail? ==> StartsWith(msg, RequestTag)
    ensures msg != "" && !StartsWith(msg, RequestTag) ==> a == Ignore
    ensures a.Send? ==> SoundReply(have, a.reply)
  {
    if msg == "" then Close
    else if StartsWith(msg, RequestTag) then
      match ParseIndex(msg)
      case Err(f) => Fail(f)
      case Ok(k) =>
        match Resolve(|have|, k)
        case None => Fail(IndexOutOfRange)
        case Some(j) => Send(if Has(have, j) then Data(k) else NotAvailable)
    else Ignore // `HAVE_PIECE`, and any other text, is read and passed over
  }

  /** A request for an index `0 <= i < n` is answered with data exactly when piece `i` is owned. */
  lemma ServeAnswersRequest(have: Bitfield, i: int)
    requires 0 <= i < |have|
    ensures Serve(have, Request(i)) == Send(if have[i] != 0 then Data(i) else NotAvailable)
  {
    ParseRequest(i);
  }

  /** Python's negative indexing: `REQUEST_PIECE:-m` is answered from flag `n - m`,
      and the data reply repeats the negative index. */
  lemma ServeNegativeRequest(have: Bitfield, i: int)
    requires -|have| <= i < 0
    ensures Serve(have, Request(i)) == Send(if have[|have| + i] != 0 then Data(i) else NotAvailable)
  {
    ParseRequest(i);
  }

  /** A request outside `-n..n-1` raises `IndexError`: no reply. */
  lemma ServeRejectsOutOfRange(have: Bitfield, i: int)
    requires i >= |have| || i < -|have|
    ensures Serve(have, Request(i)) == Fail(IndexOutOfRange)
  {
    ParseRequest(i);
  }

  /** A request without exactly one `:` fails to unpack: no reply. */
  lemma ServeRejectsBadShape(have: Bitfield, msg: string)
    requires StartsWith(msg, RequestTag)
    requires CountChar(Strip(msg), ':') != 1
    ensures Serve(have, msg) == Fail(UnpackMismatch)
  {
  }

  /** A request whose index is not an integer fails in `int()`: no reply. */
  lemma ServeRejectsNonInteger(have: Bitfield, msg: string)
    requires StartsWith(msg, RequestTag)
    requires CountChar(Strip(msg), ':') == 1
    requires ParseInt(Split(Strip(msg), ':')[1]) == None
    ensures Serve(have, msg) == Fail(NotAnInteger)
  {
  }

  /** A `HAVE_PIECE` notification gets no reply and the loop goes on. */
  lemma ServeIgnoresHave(have: Bitfield, msg: string)
    requires StartsWith(msg, HaveTag)
    ensures Serve(have, msg) == Ignore
  {
    HaveIsNotRequest(msg);
  }

  /** How a connection's handling ended. */
  datatype Ending = PeerClosed | Raised(fault: Fault)

  /** The replies written on one connection, how many messages were read, and why it stopped. */
  datatype Session = Session(replies: seq<string>, consumed: nat, ending: Ending)

  /** The handler loop, given what each successive read makes it do. */
  function Loop(actions: seq<Action>): (s: Session)
    ensures s.consumed <= |actions|
    ensures |s.replies| <= s.consumed
  {
    if |actions| == 0 then Session([], 0, PeerClosed)
    else
      match actions[0]
      case Close => Session([], 1, PeerClosed)
      case Fail(f) => Session([], 1, Raised(f))
      case Ignore =>
        var rest := Loop(actions[1..]);
        Session(rest.replies, rest.consumed + 1, rest.ending)
      case Send(reply) =>
        var rest := Loop(actions[1..]);
        Session([reply] + rest.replies, rest.consumed + 1, rest.ending)
  }

  /** Every reply the loop writes is one a consumed read asked it to send. */
  lemma {:induction false} LoopSendsOnly(actions: seq<Action>)
    ensures forall k :: 0 <= k < |Loop(actions).replies| ==>
              Send(Loop(actions).replies[k]) in actions[..Loop(actions).consumed]
  {
    if |actions| > 0 {
      LoopSendsOnly(actions[1..]);
      var s, rest := Loop(actions), Loop(actions[1..]);
      if actions[0].Send? || actions[0].Ignore? {
        assert actions[..s.consumed] == [actions[0]] + actions[1..][..rest.consumed];
        if actions[0].Send? {
          assert s.replies == [actions[0].reply] + rest.replies;
        }
      }
    }
  }

  /** The loop stops early only at a `Close` or a `Fail`, which is then the last action taken. */
  lemma {:induction false} LoopEndsAtLastAction(actions: seq<Action>)
    ensures Loop(actions).ending.Raised? ==>
              0 < Loop(actions).consumed && actions[Loop(actions).consumed - 1] == Fail(Loop(actions).ending.fault)
    ensures Loop(actions).ending.PeerClosed? ==>
              Loop(actions).consumed == |actions| || (0 < Loop(actions).consumed && actions[Loop(actions).consumed - 1] == Close)
    ensures 0 < Loop(actions).consumed && actions[Loop(actions).consumed - 1].Fail? ==>
              Loop(actions).ending == Raised(actions[Loop(actions).consumed - 1].fault)
    ensures 0 < Loop(actions).consumed && actions[Loop(actions).consumed - 1].Close? ==>
              Loop(actions).ending == PeerClosed
  {
    if |actions| > 0 {
      LoopEndsAtLastAction(actions[1..]);
      var s, rest := Loop(actions), Loop(actions[1..]);
      if !actions[0].Close? && !actions[0].Fail? && rest.consumed > 0 {
        assert actions[s.consumed - 1] == actions[1..][rest.consumed - 1];
      }
    }
  }

  /** The replies of the `Send` actions among `actions`, in order. */
  function Written(actions: seq<Action>): (replies: seq<string>)
    ensures |replies| <= |actions|
  {
    if |actions| == 0 then []
    else (if actions[0].Send? then [actions[0].reply] else []) + Written(actions[1..])
  }

  /** The loop goes on past a read only when that read was answered or passed over, and it
      writes the reply of every `Send` it consumed, in order, and nothing else. */
  lemma {:induction false} LoopStopsAtFirst(actions: seq<Action>)
    ensures forall k :: 0 <= k < Loop(actions).consumed - 1 ==> actions[k].Send? || actions[k].Ignore?
    ensures Loop(actions).replies == Written(actions[..Loop(actions).consumed])
  {
    if |actions| > 0 {
      var s, rest := Loop(actions), Loop(actions[1..]);
      var a := actions[0];
      if a.Close? || a.Fail? {
        assert actions[..s.consumed] == [a];
        assert Written([a]) == [] + Written([a][1..]);
      } else {
        LoopStopsAtFirst(actions[1..]);
        var taken := actions[..s.consumed];
        assert taken == [a] + actions[1..][..rest.consumed];
        assert taken[1..] == actions[1..][..rest.consumed];
        assert Written(taken) == (if a.Send? then [a.reply] else []) + Written(taken[1..]);
        forall k | 0 < k < s.consumed - 1
          ensures actions[k].Send? || actions[k].Ignore?
        {
          assert actions[k] == actions[1..][k - 1];
        }
      }
    }
  }

  /** `Serve` applied to each read of a connection. */
  function ServeAll(have: Bitfield, msgs: seq<string>): (actions: seq<Action>)
    ensures |actions| == |msgs|
    ensures forall k :: 0 <= k < |msgs| ==> actions[k] == Serve(have, msgs[k])
  {
    if |msgs| == 0 then [] else [Serve(have, msgs[0])] + ServeAll(have, msgs[1..])
  }

  /** `handle_peer_connection` over the successive reads `msgs` of one connection.
      Running out of reads is the peer closing the connection. */
  function HandleConnection(have: Bitfield, msgs: seq<string>): (s: Session)
    ensures s.consumed <= |msgs|
    ensures |s.replies| <= s.consumed
    ensures forall k :: 0 <= k < |s.replies| ==> SoundReply(have, s.replies[k])
    ensures s.ending.Raised? ==> 0 < s.consumed && Serve(have, msgs[s.consumed - 1]) == Fail(s.ending.fault)
    ensures s.ending.PeerClosed? ==> s.consumed == |msgs| || (0 < s.consumed && msgs[s.consumed - 1] == "")
    ensures 0 < s.consumed && Serve(have, msgs[s.consumed - 1]).Fail? ==>
              s.ending == Raised(Serve(have, msgs[s.consumed - 1]).fault)
    ensures 0 < s.consumed && msgs[s.consumed - 1] == "" ==> s.ending == PeerClosed
    // it reads on past a message only when that message was non-empty and did not raise,
    // and it writes the reply of every answered message it read, in order
    ensures forall k :: 0 <= k < s.consumed - 1 ==> msgs[k] != "" && !Serve(have, msgs[k]).Fail?
    ensures s.replies == Written(ServeAll(have, msgs)[..s.consumed])
  {
    var s := Loop(ServeAll(have, msgs));
    ServedRepliesSound(have, msgs, s);
    ServedEnding(have, msgs, s);
    ServedGoesOn(have, msgs, s);
    LoopStopsAtFirst(ServeAll(have, msgs));
    s
  }

  lemma ServedRepliesSound(have: Bitfield, msgs: seq<string>, s: Session)
    requires s == Loop(ServeAll(have, msgs))
    ensures forall k :: 0 <= k < |s.replies| ==> SoundReply(have, s.replies[k])
  {
    var actions := ServeAll(have, msgs);
    LoopSendsOnly(actions);
    forall k | 0 <= k < |s.replies| ensures SoundReply(have, s.replies[k]) {
      var j :| 0 <= j < s.consumed && actions[..s.consumed][j] == Send(s.replies[k]);
      assert Serve(have, msgs[j]).Send?;
    }
  }

  lemma ServedEnding(have: Bitfield, msgs: seq<string>, s: Session)
    requires s == Loop(ServeAll(have, msgs))
    ensures s.ending.Raised? ==> 0 < s.consumed && Serve(have, msgs[s.consumed - 1]) == Fail(s.ending.fault)
    ensures s.ending.PeerClosed? ==> s.consumed == |msgs| || (0 < s.consumed && msgs[s.consumed - 1] == "")
    ensures 0 < s.consumed && Serve(have, msgs[s.consumed - 1]).Fail? ==>
              s.ending == Raised(Serve(have, msgs[s.consumed - 1]).fault)
    ensures 0 < s.consumed && msgs[s.consumed - 1] == "" ==> s.ending == PeerClosed
  {
    LoopEndsAtLastAction(ServeAll(have, msgs));
  }

  lemma ServedGoesOn(have: Bitfield, msgs: seq<string>, s: Session)
    requires s == Loop(ServeAll(have, msgs))
    ensures forall k :: 0 <= k < s.consumed - 1 ==> msgs[k] != "" && !Serve(have, msgs[k]).Fail?
  {
    LoopStopsAtFirst(ServeAll(have, msgs));
  }

  /** The requests for the indices `idx`, in order. */
  function Requests(idx: seq<int>): (msgs: seq<string>)
    ensures |msgs| == |idx|
    ensures forall k :: 0 <= k < |idx| ==> msgs[k] == Request(idx[k])
  {
    if |idx| == 0 then [] else [Request(idx[0])] + Requests(idx[1..])
  }

  /** What an owner of `have` answers to a request for the in-range index `i`. */
  function Answer(have: Bitfield, i: nat): string
    requires i < |have|
  {
    if have[i] != 0 then Data(i) else NotAvailable
  }

  /** What an owner of `have` should answer to each request for `idx`. */
  function Answers(have: Bitfield, idx: seq<int>): (replies: seq<string>)
    requires forall k :: 0 <= k < |idx| ==> 0 <= idx[k] < |have|
    ensures |replies| == |idx|
    ensures forall k :: 0 <= k < |idx| ==> replies[k] == Answer(have, idx[k])
  {
    seq(|idx|, k requires 0 <= k < |idx| => Answer(have, idx[k]))
  }

  /** A loop that is asked to send each of `replies` in turn writes all of them and
      reads on until the input runs out. */
  lemma {:induction false} LoopOfSends(actions: seq<Action>, replies: seq<string>)
    requires |actions| == |replies|
    requires forall k :: 0 <= k < |actions| ==> actions[k] == Send(replies[k])
    ensures Loop(actions) == Session(replies, |replies|, PeerClosed)
  {
    if |actions| > 0 {
      assert actions[0] == Send(replies[0]);
      LoopOfSends(actions[1..], replies[1..]);
      assert [replies[0]] + replies[1..] == replies;
    }
  }

  /** A stream of in-range requests gets one answer per request, in order,
      and the connection ends only when the peer closes it. */
  lemma ConnectionAnswersEveryRequest(have: Bitfield, idx: seq<int>)
    requires forall k :: 0 <= k < |idx| ==> 0 <= idx[k] < |have|
    ensures HandleConnection(have, Requests(idx)) == Session(Answers(have, idx), |idx|, PeerClosed)
  {
    var msgs, replies := Requests(idx), Answers(have, idx);
    var actions := ServeAll(have, msgs);
    forall k | 0 <= k < |actions|
      ensures actions[k] == Send(replies[k])
    {
      ServeAnswersRequest(have, idx[k]);
    }
    LoopOfSends(actions, replies);
  }

  /** An empty read ends the loop at once, whatever would have followed. */
  lemma EmptyReadEndsLoop(have: Bitfield, msgs: seq<string>)
    requires |msgs| > 0 && msgs[0] == ""
    ensures HandleConnection(have, msgs) == Session([], 1, PeerClosed)
  {
  }

  /** A malformed first message closes the connection with nothing written. */
  lemma MalformedClosesSilently(have: Bitfield, msgs: seq<string>)
    requires |msgs| > 0 && Serve(have, msgs[0]).Fail?
    ensures HandleConnection(have, msgs) == Session([], 1, Raised(Serve(have, msgs[0]).fault))
  {
  }

  /** An empty read in the middle of a connection ends it there: the request after it is never read. */
  lemma EmptyReadMidStream()
    ensures HandleConnection([1], [Request(0), "", Request(0)]) == Session([Data(0)], 2, PeerClosed)
  {
    var actions := ServeAll([1], [Request(0), "", Request(0)]);
    assert actions == [Send(Data(0)), Close, Send(Data(0))] by {
      ServeAnswersRequest([1], 0);
    }
    assert Loop(actions) == Session([Data(0)], 2, PeerClosed) by {
      assert actions[1..] == [Close, Send(Data(0))];
    }
  }

  /** A `HAVE_PIECE` notification does not interrupt the connection: the request after it is answered. */
  lemma HaveThenRequest()
    ensures HandleConnection([1], [HaveTag + ":0", Request(0)]) == Session([Data(0)], 2, PeerClosed)
  {
    var have := HaveTag + ":0";
    assert StartsWith(have, HaveTag) by {
      assert have[..|HaveTag|] == HaveTag;
    }
    ServeIgnoresHave([1], have);
    ServeAnswersRequest([1], 0);
    var actions := ServeAll([1], [have, Request(0)]);
    assert actions == [Ignore, Send(Data(0))];
    LoopOfSends(actions[1..], [Data(0)]);
  }
}

=== FILE: piece_store.dfy ===
/**
  The local record of owned pieces: Python's `have_pieces` list, one integer
  flag per piece index, `0` for missing and `1` for owned, read by truthiness.
 */
module PieceStore {
  import opened Wrappers

  type Bitfield = seq<int>

  /** `[0] * total_pieces`: the store at process start. */
  function Initial(n: nat): (b: Bitfield)
    ensures |b| == n
    ensures IsFlags(b)
    ensures forall i :: 0 <= i < n ==> !Has(b, i)
  {
    seq(n, _ => 0)
  }

  /** Every flag is one of the two values the program ever writes. */
  predicate IsFlags(b: Bitfield) {
    forall i :: 0 <= i < |b| ==> b[i] == 0 || b[i] == 1
  }

  /** Python list indexing `b[k]` for a list of length `n`: negative `k`
      counts from the end; `None` is the `IndexError`. */
  function Resolve(n: nat, k: int): (r: Option<nat>)
    ensures r.Some? <==> -(n as int) <= k < n
    ensures r.Some? ==> r.value < n
    ensures r.Some? ==> r.value == if k >= 0 then k else n + k
  {
    if 0 <= k < n then Some(k) else if -(n as int) <= k < 0 then Some(n + k) else None
  }

  /** Negative indexing counts from the end: `b[k - n]` is the same element as `b[k]`,
      and no two valid indices of the same sign name the same element. */
  lemma ResolveFromEnd(n: nat, k: int, k': int)
    requires 0 <= k < n
    ensures Resolve(n, k - n) == Resolve(n, k) == Some(k)
    ensures Resolve(n, k').Some? && Resolve(n, k').value == k ==> k' == k || k' == k - n
  {
  }

  /** `if have_pieces[i]:` */
  predicate Has(b: Bitfield, i: nat)
    requires i < |b|
  {
    b[i] != 0
  }

  /** `have_pieces[i] = 1` */
  function MarkOwned(b: Bitfield, i: nat): (r: Bitfield)
    requires i < |b|
    ensures |r| == |b| && Has(r, i)
    ensures forall j :: 0 <= j < |b| && j != i ==> r[j] == b[j]
  {
    b[i := 1]
  }

  /** `b'` has the length of `b`, and every flag that differs was overwritten with 1. */
  predicate OnlyGains(b: Bitfield, b': Bitfield) {
    |b'| == |b| && forall j :: 0 <= j < |b| ==> b'[j] == b[j] || b'[j] == 1
  }

  /** Every index is owned. */
  predicate IsComplete(b: Bitfield) {
    forall i :: 0 <= i < |b| ==> Has(b, i)
  }

  /** Python's `all(have_pieces)`, which walks the list and stops at the first falsy flag. */
  function AllTruthy(b: Bitfield): bool {
    if |b| == 0 then true else b[0] != 0 && AllTruthy(b[1..])
  }

  /** The completion test in `main` holds exactly when every index is owned. */
  lemma {:induction false} AllTruthyIffComplete(b: Bitfield)
    ensures AllTruthy(b) <==> IsComplete(b)
  {
    if |b| > 0 {
      AllTruthyIffComplete(b[1..]);
      if AllTruthy(b) {
        forall i | 0 <= i < |b| ensures Has(b, i) {
          if i > 0 { assert b[i] == b[1..][i - 1] && Has(b[1..], i - 1); }
        }
      }
      if IsComplete(b) {
        assert Has(b, 0);
        assert IsComplete(b[1..]) by {
          forall i | 0 <= i < |b| - 1 ensures Has(b[1..], i) {
            assert Has(b, i + 1);
          }
        }
      }
    }
  }

  /** Marking an index twice is the same as marking it once. */
  lemma MarkOwnedIdempotent(b: Bitfield, i: nat)
    requires i < |b|
    ensures MarkOwned(MarkOwned(b, i), i) == MarkOwned(b, i)
  {
  }

  /** Marking only writes a 1, keeps the length and keeps the flags 0/1. */
  lemma MarkOwnedGains(b: Bitfield, i: nat)
    requires i < |b|
    ensures OnlyGains(b, MarkOwned(b, i))
    ensures IsFlags(b) ==> IsFlags(MarkOwned(b, i))
  {
  }

  /** On a 0/1 store a gain moves flags from 0 to 1 only, and the result is again 0/1. */
  lemma GainsOnFlags(b: Bitfield, b': Bitfield)
    requires IsFlags(b) && OnlyGains(b, b')
    ensures IsFlags(b')
    ensures forall j :: 0 <= j < |b| && b'[j] != b[j] ==> b[j] == 0 && b'[j] == 1
  {
  }

  /** A sequence of gains is a gain. */
  lemma OnlyGainsTransitive(b: Bitfield, b': Bitfield, b'': Bitfield)
    requires OnlyGains(b, b') && OnlyGains(b', b'')
    ensures OnlyGains(b, b'')
  {
  }

  /** Once owned, owned forever: a gain never clears a flag. */
  lemma OwnedStaysOwned(b: Bitfield, b': Bitfield, i: nat)
    requires OnlyGains(b, b') && i < |b| && Has(b, i)
    ensures i < |b'| && Has(b', i)
  {
  }
}

=== FILE: py_text.dfy ===
/**
  The few Python string operations the peer protocol and the tracker rely on:
  `str.startswith`, `str.strip()`, `str.split(':')`, `int(str)` and `str(int)`.
  Characters are Unicode scalar values; whitespace and digits are the ASCII ones.
 */
module PyText {
  import opened Wrappers

  /** `s.startswith(p)` */
  predicate StartsWith(s: string, p: string) {
    |p| <= |s| && s[..|p|] == p
  }

  /** `startswith` compares the leading characters one by one. */
  lemma StartsWithPointwise(s: string, p: string)
    ensures StartsWith(s, p) <==> |p| <= |s| && forall i :: 0 <= i < |p| ==> s[i] == p[i]
  {
    if |p| <= |s| && forall i :: 0 <= i < |p| ==> s[i] == p[i] {
      assert s[..|p|] == p;
    }
  }

  /** A string starts with `p` exactly when it is `p` followed by the rest. */
  lemma StartsWithConcat(s: string, p: string, t: string)
    ensures StartsWith(p + t, p)
    ensures StartsWith(s, p) ==> s == p + s[|p|..]
  {
    assert (p + t)[..|p|] == p;
    if StartsWith(s, p) {
      assert s == s[..|p|] + s[|p|..];
    }
  }

  /** The ASCII characters Python's `str.isspace()` accepts: tab, line feed,
      vertical tab, form feed, carriage return, the four separators 0x1C-0x1F and space. */
  predicate IsSpace(c: char) {
    (9 <= c as int <= 13) || (28 <= c as int <= 32)
  }

  /** The ASCII whitespace `int()` skips around a number: tab, line feed, vertical tab,
      form feed, carriage return and space, but not the separators 0x1C-0x1F. */
  predicate IsIntSpace(c: char) {
    (9 <= c as int <= 13) || c == ' '
  }

  /** Which whitespace a strip drops: that of `str.strip()`, or the narrower one of `int()`. */
  datatype Spaces = StrSpaces | IntSpaces

  predicate IsBlank(w: Spaces, c: char) {
    if w == StrSpaces then IsSpace(c) else IsIntSpace(c)
  }

  function StripLeft(s: string, w: Spaces): (r: string)
    ensures |r| <= |s|
    ensures |r| > 0 ==> !IsBlank(w, r[0])
  {
    if |s| > 0 && IsBlank(w, s[0]) then StripLeft(s[1..], w) else s
  }

  function StripRight(s: string, w: Spaces): (r: string)
    ensures |r| <= |s|
    ensures |r| > 0 ==> !IsBlank(w, r[|r| - 1]) && r[0] == s[0]
  {
    if |s| > 0 && IsBlank(w, s[|s| - 1]) then StripRight(s[..|s| - 1], w) else s
  }

  /** `s.strip()`: drops leading and trailing whitespace. */
  function Strip(s: string): (r: string)
    ensures |r| <= |s|
    ensures |r| > 0 ==> !IsSpace(r[0]) && !IsSpace(r[|r| - 1])
  {
    StripRight(StripLeft(s, StrSpaces), StrSpaces)
  }

  /** What `int()` skips before reading a number: leading and trailing `int()` whitespace. */
  function StripInt(s: string): (r: string)
    ensures |r| <= |s|
    ensures |r| > 0 ==> !IsIntSpace(r[0]) && !IsIntSpace(r[|r| - 1])
  {
    StripRight(StripLeft(s, IntSpaces), IntSpaces)
  }

  /** `StripLeft` removes a prefix made of whitespace only. */
  lemma {:induction false} StripLeftRemovesSpace(s: string, w: Spaces)
    ensures var r := StripLeft(s, w);
            r == s[|s| - |r|..] && forall i :: 0 <= i < |s| - |r| ==> IsBlank(w, s[i])
  {
    if |s| > 0 && IsBlank(w, s[0]) {
      StripLeftRemovesSpace(s[1..], w);
      var r := StripLeft(s, w);
      assert forall i :: 1 <= i < |s| - |r| ==> s[i] == s[1..][i - 1];
    }
  }

  /** `StripRight` removes a suffix made of whitespace only. */
  lemma {:induction false} StripRightRemovesSpace(s: string, w: Spaces)
    ensures var r := StripRight(s, w);
            r == s[..|r|] && forall i :: |r| <= i < |s| ==> IsBlank(w, s[i])
  {
    if |s| > 0 && IsBlank(w, s[|s| - 1]) {
      StripRightRemovesSpace(s[..|s| - 1], w);
    }
  }

  /** Stripping either kind of whitespace keeps a middle slice, from `a`, the length
      of the leading whitespace, on, and drops only whitespace around it. */
  lemma StripKeepsMiddle(s: string, w: Spaces)
    ensures var a, r := |s| - |StripLeft(s, w)|, StripRight(StripLeft(s, w), w);
            && a + |r| <= |s|
            && r == s[a..a + |r|]
            && (forall i :: 0 <= i < a ==> IsBlank(w, s[i]))
            && (forall i :: a + |r| <= i < |s| ==> IsBlank(w, s[i]))
  {
    var l := StripLeft(s, w);
    var a := |s| - |l|;
    assert l == s[a..] && forall i :: 0 <= i < a ==> IsBlank(w, s[i]) by {
      StripLeftRemovesSpace(s, w);
    }
    StripRightOfSuffix(s, a, w);
  }

  /** `StripRight` of the suffix of `s` from `a` on drops only whitespace at the end of `s`. */
  lemma StripRightOfSuffix(s: string, a: nat, w: Spaces)
    requires a <= |s|
    ensures var r := StripRight(s[a..], w);
            && a + |r| <= |s|
            && r == s[a..a + |r|]
            && (forall i :: a + |r| <= i < |s| ==> IsBlank(w, s[i]))
  {
    var l := s[a..];
    var r := StripRight(l, w);
    StripRightRemovesSpace(l, w);
    assert l[..|r|] == s[a..a + |r|];
    forall i | a + |r| <= i < |s|
      ensures IsBlank(w, s[i])
    {
      assert s[i] == l[i - a];
    }
  }

  /** `strip()` keeps the middle of the string, from `a`, the length of the leading
      whitespace, on, and drops only whitespace around it. */
  lemma StripRemovesOnlySpace(s: string)
    ensures var a, r := |s| - |StripLeft(s, StrSpaces)|, Strip(s);
            && a + |r| <= |s|
            && r == s[a..a + |r|]
            && (forall i :: 0 <= i < a ==> IsSpace(s[i]))
            && (forall i :: a + |r| <= i < |s| ==> IsSpace(s[i]))
  {
    StripKeepsMiddle(s, StrSpaces);
  }

  /** A string that neither starts nor ends with whitespace is left alone by `strip()`. */
  lemma StripClean(s: string)
    requires |s| > 0 ==> !IsSpace(s[0]) && !IsSpace(s[|s| - 1])
    ensures Strip(s) == s
  {
  }

  /** A string that neither starts nor ends with `int()` whitespace is left alone by it. */
  lemma StripIntClean(s: string)
    requires |s| > 0 ==> !IsIntSpace(s[0]) && !IsIntSpace(s[|s| - 1])
    ensures StripInt(s) == s
  {
  }

  /** Number of occurrences of `c` in `s`. */
  function CountChar(s: string, c: char): nat {
    if |s| == 0 then 0 else (if s[0] == c then 1 else 0) + CountChar(s[1..], c)
  }

  /** `s.split(c)`: the pieces between the separators, always at least one. */
  function Split(s: string, c: char): (parts: seq<string>)
    ensures |parts| == CountChar(s, c) + 1
    ensures forall k :: 0 <= k < |parts| ==> c !in parts[k]
  {
    if |s| == 0 then [""]
    else
      var tail := Split(s[1..], c);
      if s[0] == c then [""] + tail
      else [[s[0]] + tail[0]] + tail[1..]
  }

  /** `c.join(parts)`, the inverse of `Split`. */
  function Join(parts: seq<string>, c: char): string
    requires |parts| > 0
  {
    if |parts| == 1 then parts[0] else parts[0] + [c] + Join(parts[1..], c)
  }

  /** Joining the pieces of a split gives back the string. */
  lemma {:induction false} JoinSplit(s: string, c: char)
    ensures Join(Split(s, c), c) == s
  {
    if |s| > 0 {
      var tail := Split(s[1..], c);
      JoinSplit(s[1..], c);
      if s[0] == c {
        assert Split(s, c) == [""] + tail;
        assert Join(Split(s, c), c) == "" + [c] + Join(tail, c);
        assert [c] + s[1..] == s;
      } else {
        var parts := [[s[0]] + tail[0]] + tail[1..];
        assert Split(s, c) == parts;
        if |tail| == 1 {
          assert Join(parts, c) == [s[0]] + tail[0];
        } else {
          assert parts[1..] == tail[1..];
          assert Join(parts, c) == ([s[0]] + tail[0]) + [c] + Join(tail[1..], c);
          assert Join(tail, c) == tail[0] + [c] + Join(tail[1..], c);
        }
        assert [s[0]] + s[1..] == s;
      }
    }
  }

  /** A string without the separator splits into itself alone. */
  lemma {:induction false} SplitWithoutSeparator(s: string, c: char)
    requires c !in s
    ensures Split(s, c) == [s]
  {
    if |s| > 0 {
      SplitWithoutSeparator(s[1..], c);
      assert [s[0]] + s[1..] == s;
    }
  }

  /** Splitting stops the first piece at the first separator. */
  lemma {:induction false} SplitAtFirst(a: string, c: char, b: string)
    requires c !in a
    ensures Split(a + [c] + b, c) == [a] + Split(b, c)
  {
    var s := a + [c] + b;
    if |a| == 0 {
      assert s[0] == c && s[1..] == b;
    } else {
      assert s[0] == a[0] && s[1..] == a[1..] + [c] + b;
      SplitAtFirst(a[1..], c, b);
      assert [a[0]] + a[1..] == a;
    }
  }

  /** Splitting a join of separator-free pieces gives back the pieces. */
  lemma {:induction false} SplitJoin(parts: seq<string>, c: char)
    requires |parts| > 0
    requires forall k :: 0 <= k < |parts| ==> c !in parts[k]
    ensures Split(Join(parts, c), c) == parts
  {
    if |parts| == 1 {
      SplitWithoutSeparator(parts[0], c);
    } else {
      SplitJoin(parts[1..], c);
      SplitAtFirst(parts[0], c, Join(parts[1..], c));
      assert [parts[0]] + parts[1..] == parts;
    }
  }

  predicate IsDigit(c: char) {
    '0' <= c <= '9'
  }

  function DigitValue(c: char): nat {
    if IsDigit(c) then c as int - '0' as int else 0
  }

  /** Base-10 digits with single underscores between them, the body `int()` accepts after the sign. */
  predicate IsDigitRun(s: string) {
    && |s| > 0
    && IsDigit(s[0])
    && IsDigit(s[|s| - 1])
    && (forall i :: 0 <= i < |s| ==> IsDigit(s[i]) || s[i] == '_')
    && (forall i :: 0 <= i < |s| - 1 ==> s[i] == '_' ==> s[i + 1] != '_')
  }

  /** The number a digit run denotes; underscores are separators only. */
  function DigitsValue(s: string): nat {
    if |s| == 0 then 0
    else if s[|s| - 1] == '_' then DigitsValue(s[..|s| - 1])
    else DigitsValue(s[..|s| - 1]) * 10 + DigitValue(s[|s| - 1])
  }

  /** `int(s)` for a string: surrounding `int()` whitespace, an optional sign, then a digit run.
      `None` is the `ValueError` Python raises for anything else. */
  function ParseInt(s: string): (r: Option<int>)
    ensures r.Some? ==> |StripInt(s)| > 0 && (IsDigit(StripInt(s)[0]) || StripInt(s)[0] == '+' || StripInt(s)[0] == '-')
    ensures r.Some? ==> (r.value < 0 ==> StripInt(s)[0] == '-')
  {
    var t := StripInt(s);
    if |t| > 0 && (t[0] == '+' || t[0] == '-') then
      if IsDigitRun(t[1..]) then
        Some(if t[0] == '-' then -(DigitsValue(t[1..]) as int) else DigitsValue(t[1..]))
      else None
    else if IsDigitRun(t) then Some(DigitsValue(t))
    else None
  }

  function DigitChar(d: nat): (c: char)
    requires d < 10
    ensures IsDigit(c) && DigitValue(c) == d
  {
    ('0' as int + d) as char
  }

  /** Decimal digits of a natural number, without leading zeros. */
  function NatToString(n: nat): (r: string)
    ensures |r| > 0
  {
    if n < 10 then [DigitChar(n)] else NatToString(n / 10) + [DigitChar(n % 10)]
  }

  /** `str(n)` for an integer: `-` in front of the digits of a negative number. */
  function IntToString(n: int): (r: string)
    ensures |r| > 0
  {
    if n < 0 then "-" + NatToString(-n) else NatToString(n)
  }

  /** `str` of a natural number is made of decimal digits only. */
  lemma {:induction false} NatToStringDigits(n: nat)
    ensures forall i :: 0 <= i < |NatToString(n)| ==> IsDigit(NatToString(n)[i])
  {
    if n >= 10 {
      NatToStringDigits(n / 10);
    }
  }

  /** `str` of an integer is digits, with a `-` in front exactly when it is negative. */
  lemma IntToStringShape(n: int)
    ensures var s := IntToString(n);
            && (forall i :: 0 < i < |s| ==> IsDigit(s[i]))
            && (IsDigit(s[0]) <==> n >= 0)
            && (n < 0 ==> s[0] == '-' && |s| >= 2)
  {
    if n < 0 {
      NatToStringDigits(-n);
      assert forall i :: 0 < i < |IntToString(n)| ==> IntToString(n)[i] == NatToString(-n)[i - 1];
    } else {
      NatToStringDigits(n);
    }
  }

  lemma {:induction false} NatToStringValue(n: nat)
    ensures DigitsValue(NatToString(n)) == n
  {
    var s := NatToString(n);
    if n >= 10 {
      NatToStringValue(n / 10);
      assert s[..|s| - 1] == NatToString(n / 10);
    } else {
      assert s[..|s| - 1] == "";
    }
  }

  /** The digits of a natural number form a digit run denoting that number. */
  lemma DigitRunOfNat(n: nat)
    ensures IsDigitRun(NatToString(n)) && DigitsValue(NatToString(n)) == n
  {
    NatToStringDigits(n);
    NatToStringValue(n);
  }

  /** `int(str(n)) == n` for every integer `n`. */
  lemma ParseIntOfIntToString(n: int)
    ensures ParseInt(IntToString(n)) == Some(n)
  {
    if n < 0 {
      var d := NatToString(-n);
      DigitRunOfNat(-n);
      assert IntToString(n) == ['-'] + d;
      ParseIntSigned('-', d);
    } else {
      DigitRunOfNat(n);
      ParseIntDigits(NatToString(n));
    }
  }

  /** Surrounding `int()` whitespace does not change what `int()` reads. */
  lemma ParseIntIgnoresSpace(s: string)
    ensures ParseInt(StripInt(s)) == ParseInt(s)
  {
    StripIntClean(StripInt(s));
  }

  /** A leading `+` changes nothing, and a leading `-` negates. */
  lemma ParseIntSign(d: string)
    requires IsDigitRun(d)
    ensures ParseInt(d) == Some(DigitsValue(d) as int)
    ensures ParseInt("+" + d) == ParseInt(d)
    ensures ParseInt("-" + d) == Some(-(DigitsValue(d) as int))
  {
    ParseIntDigits(d);
    ParseIntSigned('+', d);
    ParseIntSigned('-', d);
  }

  lemma ParseIntDigits(d: string)
    requires IsDigitRun(d)
    ensures ParseInt(d) == Some(DigitsValue(d) as int)
  {
    StripIntClean(d);
  }

  lemma ParseIntSigned(c: char, d: string)
    requires IsDigitRun(d) && (c == '+' || c == '-')
    ensures ParseInt([c] + d) == Some(if c == '-' then -(DigitsValue(d) as int) else DigitsValue(d))
  {
    var t := [c] + d;
    assert t[0] == c && t[1..] == d && t[|t| - 1] == d[|d| - 1];
    StripIntClean(t);
  }

  lemma {:induction false} DigitsValueLeadingZero(d: string)
    ensures DigitsValue("0" + d) == DigitsValue(d)
  {
    if |d| > 0 {
      var s := "0" + d;
      assert s[..|s| - 1] == "0" + d[..|d| - 1] && s[|s| - 1] == d[|d| - 1];
      DigitsValueLeadingZero(d[..|d| - 1]);
    } else {
      assert ("0" + d)[..0] == "";
    }
  }

  /** Leading zeros are read as decimal, not octal: `int('007') == 7`. */
  lemma ParseIntLeadingZero(d: string)
    requires IsDigitRun(d)
    ensures ParseInt("0" + d) == ParseInt(d)
  {
    var z := "0" + d;
    assert z[1..] == d;
    assert IsDigitRun(z);
    DigitsValueLeadingZero(d);
    ParseIntSign(d);
    ParseIntSign(z);
  }

  /** An underscore between digits is a separator only: `int('1_0') == 10`. */
  lemma ParseIntUnderscore()
    ensures ParseInt("1_0") == Some(10)
  {
    var d := "1_0";
    assert IsDigitRun(d) by {
      assert d[0] == '1' && d[1] == '_' && d[2] == '0';
    }
    assert DigitsValue(d) == 10 by {
      assert d[..2] == "1_" && "1_"[..1] == "1" && "1"[..0] == "";
    }
    ParseIntSign(d);
  }

  /** Text `int()` refuses: nothing, a bare sign, a stray character, inner whitespace,
      and a doubled sign. */
  lemma ParseIntRefuses()
    ensures ParseInt("") == None && ParseInt("-") == None && ParseInt("x") == None
    ensures ParseInt("1 2") == None && ParseInt("+-1") == None
  {
    assert ParseInt("") == None && ParseInt("x") == None by {
      StripIntClean("");
      StripIntClean("x");
    }
    assert ParseInt("-") == None by {
      StripIntClean("-");
      assert "-"[1..] == "";
    }
    assert ParseInt("1 2") == None by {
      StripIntClean("1 2");
      assert "1 2"[1] == ' ';
    }
    assert ParseInt("+-1") == None by {
      StripIntClean("+-1");
      assert "+-1"[1..] == "-1";
    }
  }

  /** `int()` refuses an underscore that does not sit between two digits. */
  lemma ParseIntRefusesStrayUnderscore()
    ensures ParseInt("_1") == None && ParseInt("1_") == None && ParseInt("1__0") == None
  {
    assert ParseInt("_1") == None by {
      StripIntClean("_1");
    }
    assert ParseInt("1_") == None by {
      StripIntClean("1_");
    }
    assert ParseInt("1__0") == None by {
      StripIntClean("1__0");
      assert "1__0"[1] == '_' && "1__0"[2] == '_';
    }
  }

  /** A separator 0x1C-0x1F in front of a digit run is whitespace to `strip()`, which
      drops it, but not to `int()`, which refuses the text. */
  lemma ParseIntRefusesSeparator(c: char, d: string)
    requires 28 <= c as int <= 31 && IsDigitRun(d)
    ensures Strip([c] + d) == d
    ensures ParseInt([c] + d) == None
  {
    var t := [c] + d;
    assert t[1..] == d && t[0] == c && t[|t| - 1] == d[|d| - 1];
    StripClean(d);
    assert StripLeft(t, StrSpaces) == StripLeft(d, StrSpaces);
    StripIntClean(t);
  }

  /** `int('\x1c0')` raises, though `'\x1c0'.strip() == '0'`. */
  lemma ParseIntRefusesFileSeparator()
    ensures Strip("\U{1C}0") == "0"
    ensures ParseInt("\U{1C}0") == None
  {
    assert IsDigitRun("0");
    assert "\U{1C}0" == ['\U{1C}'] + "0";
    ParseIntRefusesSeparator('\U{1C}', "0");
  }

  /** The separator `:` never occurs in a formatted integer. */
  lemma ColonNotInIntToString(n: int)
    ensures ':' !in IntToString(n)
  {
    IntToStringShape(n);
  }
}

=== FILE: tracker.dfy ===
/**
  The tracker's request handler (`TrackerHandler.do_GET`): one announce, given
  as its query parameters and the caller's address, against the registry of
  known peers. The registry is Python's insertion-ordered dict from peer id to
  `{ip, port, info_hash}`, kept here as a list of bindings with distinct keys.
 */
module Tracker {
  import opened Wrappers
  import opened PyText
  import opened Dict

  /** The value stored for one peer id. */
  datatype PeerEntry = PeerEntry(ip: string, port: int, infoHash: string)

  /** The registry: peer id to entry, in insertion order. */
  type Registry = r: seq<(string, PeerEntry)> | DistinctKeys(r) witness []

  // ---------------------------------------------------------------------------
  // One announce

  /**
    The parsed query string: each parameter name with its first value.
    The standard query parser drops blank values, so a name present here has
    a non-empty value; the model still treats an empty one as missing, as the
    handler's truthiness test would.
   */
  type Query = map<string, string>

  /** `params.get(name, [None])[0]` */
  function Param(q: Query, name: string): Option<string> {
    if name in q then Some(q[name]) else None
  }

  /** `not value`: absent or empty. */
  predicate Blank(v: Option<string>) {
    v.None? || v.value == ""
  }

  /** One element of a `peers` list; `peerId` is absent in a plain listing. */
  datatype PeerView = PeerView(peerId: Option<string>, ip: string, port: int, infoHash: string)

  /** The JSON object sent back; each field is present or not. */
  datatype Response = Response(failureReason: Option<string>, trackerId: Option<string>, peers: Option<seq<PeerView>>)

  datatype Reply = Reply(status: int, body: Response)

  /**
    The registry after the request and what was sent back; no reply means the
    handler raised (a port that `int` rejects) before sending anything.
   */
  datatype Outcome = Outcome(registry: Registry, reply: Option<Reply>)

  const MissingParameters := "Missing required parameters."
  const TrackerId := "tracker123"

  const Empty := Response(None, None, None)

  function View(id: Option<string>, e: PeerEntry): PeerView {
    PeerView(id, e.ip, e.port, e.infoHash)
  }

  /** The registry as a `peers` list, in insertion order, with or without peer ids. */
  function Views(r: seq<(string, PeerEntry)>, named: bool): (v: seq<PeerView>)
    ensures |v| == |r|
    ensures forall i :: 0 <= i < |r| ==> v[i] == View(if named then Some(r[i].0) else None, r[i].1)
  {
    if |r| == 0 then [] else [View(if named then Some(r[0].0) else None, r[0].1)] + Views(r[1..], named)
  }

  predicate MissingRequired(q: Query) {
    Blank(Param(q, "peer_id")) || Blank(Param(q, "port")) || Blank(Param(q, "info_hash"))
  }

  /** A `started` announce: the caller is registered and every peer is listed with its id. */
  function Started(reg: Registry, clientIp: string, peerId: string, port: int, infoHash: string): (o: Outcome)
    ensures Lookup(o.registry, peerId) == Some(PeerEntry(clientIp, port, infoHash))
    ensures forall k :: k != peerId ==> Lookup(o.registry, k) == Lookup(reg, k)
    ensures |o.registry| == |reg| + (if Lookup(reg, peerId).Some? then 0 else 1)
    // the peers already registered keep their places, and a new caller goes last
    ensures forall i :: 0 <= i < |reg| ==> o.registry[i].0 == reg[i].0
    ensures Lookup(reg, peerId).None? ==> o.registry[|reg|].0 == peerId
    ensures o.reply.Some? && o.reply.value.status == 200
    ensures o.reply.value.body.failureReason.None? && o.reply.value.body.trackerId == Some(TrackerId)
    ensures o.reply.value.body.peers.Some? && |o.reply.value.body.peers.value| == |o.registry|
    ensures forall i :: 0 <= i < |o.registry| ==>
              o.reply.value.body.peers.value[i] == View(Some(o.registry[i].0), o.registry[i].1)
  {
    var reg' := Insert(reg, peerId, PeerEntry(clientIp, port, infoHash));
    Outcome(reg', Some(Reply(200, Response(None, Some(TrackerId), Some(Views(reg', true))))))
  }

  /** An announce with no recognised event: a read-only listing of the stored values. */
  function Listing(reg: Registry): (o: Outcome)
    ensures o.registry == reg
    ensures o.reply.Some? && o.reply.value.status == 200
    ensures o.reply.value.body.failureReason.None? && o.reply.value.body.trackerId.None?
    ensures o.reply.value.body.peers.Some? && |o.reply.value.body.peers.value| == |reg|
    ensures forall i :: 0 <= i < |reg| ==> o.reply.value.body.peers.value[i] == View(None, reg[i].1)
  {
    Outcome(reg, Some(Reply(200, Response(None, None, Some(Views(reg, false))))))
  }

  /** The event dispatch of `do_GET`, once the parameters are present and the port parsed. */
  function HandleEvent(reg: Registry, clientIp: string, peerId: string, port: int, infoHash: string,
                       event: Option<string>): (o: Outcome)
    // every such request succeeds, and no other peer's entry changes
    ensures o.reply.Some? && o.reply.value.status == 200 && o.reply.value.body.failureReason.None?
    ensures forall k :: k != peerId ==> Lookup(o.registry, k) == Lookup(reg, k)
    // started: the caller is registered with its address, and every peer is listed with its id
    ensures event == Some("started") ==>
      && Lookup(o.registry, peerId) == Some(PeerEntry(clientIp, port, infoHash))
      && |o.registry| == |reg| + (if Lookup(reg, peerId).Some? then 0 else 1)
      && (forall i :: 0 <= i < |reg| ==> o.registry[i].0 == reg[i].0)
      && (Lookup(reg, peerId).None? ==> o.registry[|reg|].0 == peerId)
      && o.reply.value.body.trackerId == Some(TrackerId)
      && o.reply.value.body.peers.Some?
      && |o.reply.value.body.peers.value| == |o.registry|
      && (forall i :: 0 <= i < |o.registry| ==>
            o.reply.value.body.peers.value[i] == View(Some(o.registry[i].0), o.registry[i].1))
    // stopped: the caller is gone (a caller never registered is a no-op), and the response is empty
    ensures event == Some("stopped") ==>
      && Lookup(o.registry, peerId).None?
      && (Lookup(reg, peerId).None? ==> o.registry == reg)
      && o.reply.value.body == Empty
    // completed: nothing changes, and the response is empty
    ensures event == Some("completed") ==> o.registry == reg && o.reply.value.body == Empty
    // anything else: nothing changes, and the stored values are listed without peer ids
    ensures event !in {Some("started"), Some("stopped"), Some("completed")} ==>
      && o.registry == reg
      && o.reply.value.body.trackerId.None?
      && o.reply.value.body.peers.Some?
      && |o.reply.value.body.peers.value| == |reg|
      && (forall i :: 0 <= i < |reg| ==> o.reply.value.body.peers.value[i] == View(None, reg[i].1))
  {
    if event == Some("started") then Started(reg, clientIp, peerId, port, infoHash)
    else if event == Some("stopped") then Outcome(Remove(reg, peerId), Some(Reply(200, Empty)))
    else if event == Some("completed") then Outcome(reg, Some(Reply(200, Empty)))
    else Listing(reg)
  }

  /** `TrackerHandler.do_GET` for a caller at `clientIp`. */
  function Announce(reg: Registry, clientIp: string, q: Query): (o: Outcome)
    // rejected before any change
    ensures MissingRequired(q) ==>
      o == Outcome(reg, Some(Reply(400, Response(Some(MissingParameters), None, None))))
    // a port `int` rejects raises, also before any change
    ensures o.reply.None? <==> !MissingRequired(q) && ParseInt(q["port"]).None?
    ensures o.reply.None? ==> o.registry == reg
    // a 400 carries only the failure reason; every other reply is a 200 without one
    ensures o.reply.Some? ==> (o.reply.value.status == 400 <==> MissingRequired(q))
    ensures o.reply.Some? && !MissingRequired(q) ==> o.reply.value.status == 200 && o.reply.value.body.failureReason.None?
    // no other peer's entry changes
    ensures forall k :: Param(q, "peer_id") != Some(k) ==> Lookup(o.registry, k) == Lookup(reg, k)
    // a well-formed request is dispatched on its event with the parsed port
    ensures o.reply.Some? && !MissingRequired(q) ==>
      o == HandleEvent(reg, clientIp, q["peer_id"], ParseInt(q["port"]).value, q["info_hash"], Param(q, "event"))
  {
    if MissingRequired(q) then
      Outcome(reg, Some(Reply(400, Response(Some(MissingParameters), None, None))))
    else
      match ParseInt(q["port"])
      case None => Outcome(reg, None)
      case Some(port) => HandleEvent(reg, clientIp, q["peer_id"], port, q["info_hash"], Param(q, "event"))
  }

  /** Announcing `started` again overwrites the caller's entry instead of adding a second one. */
  lemma RepeatStartedOverwrites(reg: Registry, ip: string, ip': string, peerId: string,
                                port: int, port': int, infoHash: string, infoHash': string)
    ensures var once := Started(reg, ip, peerId, port, infoHash).registry;
            var twice := Started(once, ip', peerId, port', infoHash').registry;
            && |twice| == |once|
            && ToMap(twice) == ToMap(once)[peerId := PeerEntry(ip', port', infoHash')]
  {
    var once := Started(reg, ip, peerId, port, infoHash).registry;
    InsertIsMapUpdate(once, peerId, PeerEntry(ip', port', infoHash'));
  }

  /** The `started` response names every registered peer, the caller included, with its stored entry. */
  lemma StartedListsEveryPeer(reg: Registry, ip: string, peerId: string, port: int, infoHash: string)
    ensures var o := Started(reg, ip, peerId, port, infoHash);
            var peers, m := o.reply.value.body.peers.value, ToMap(o.registry);
            && |peers| == |m|
            && peerId in m
            && (forall k :: k in m ==> View(Some(k), m[k]) in peers)
  {
    var o := Started(reg, ip, peerId, port, infoHash);
    var peers, m := o.reply.value.body.peers.value, ToMap(o.registry);
    ToMapSize(o.registry);
    forall k | k in m
      ensures View(Some(k), m[k]) in peers
    {
      ToMapAt(o.registry, k);
      var i :| 0 <= i < |o.registry| && o.registry[i] == (k, m[k]);
      assert peers[i] == View(Some(k), m[k]);
    }
  }

  /** `stopped` deletes exactly the caller's entry from the map view. */
  lemma StoppedRemovesCaller(reg: Registry, ip: string, peerId: string, port: int, infoHash: string)
    ensures ToMap(HandleEvent(reg, ip, peerId, port, infoHash, Some("stopped")).registry) == ToMap(reg) - {peerId}
  {
    RemoveIsMapRemoval(reg, peerId);
  }

  /** `stopped` keeps the other peers in their registration order, so later listings keep it too. */
  lemma StoppedKeepsOrder(reg: Registry, ip: string, peerId: string, port: int, infoHash: string)
    ensures HandleEvent(reg, ip, peerId, port, infoHash, Some("stopped")).registry == Without(reg, peerId)
  {
    RemoveKeepsOrder(reg, peerId);
  }
}

=== FILE: wire.dfy ===
/**
  The text messages peers exchange over one connection, and the parsing both
  sides apply to them: strip, split on `:` into exactly two parts, `int()` the second.
 */
module Wire {
  import opened Wrappers
  import opened PyText

  /** What the parsing and indexing steps raise in Python. */
  datatype Fault =
    | UnpackMismatch   // ValueError: `_, x = ...split(':')` did not get exactly two parts
    | NotAnInteger     // ValueError: `int(x)` rejected the text
    | IndexOutOfRange  // IndexError: `have_pieces[k]` outside `-n..n-1`

  const RequestTag := "REQUEST_PIECE"
  const HaveTag := "HAVE_PIECE"
  const DataTag := "PIECE_DATA"
  const NotAvailable := "PIECE_NOT_AVAILABLE"

  /** `f'REQUEST_PIECE:{i}'` */
  function Request(i: int): string {
    RequestTag + ":" + IntToString(i)
  }

  /** `f'PIECE_DATA:{i}'` */
  function Data(i: int): string {
    DataTag + ":" + IntToString(i)
  }

  /** `_, k = msg.strip().split(':'); k = int(k)` */
  function ParseIndex(msg: string): (r: Result<int, Fault>)
    ensures r.Err? ==> r.error == UnpackMismatch || r.error == NotAnInteger
    ensures r.Err? && r.error == UnpackMismatch <==> CountChar(Strip(msg), ':') != 1
  {
    var parts := Split(Strip(msg), ':');
    if |parts| != 2 then Err(UnpackMismatch)
    else match ParseInt(parts[1])
      case None => Err(NotAnInteger)
      case Some(k) => Ok(k)
  }

  /** A tag followed by `:` and a formatted integer parses back to that integer. */
  lemma ParseIndexOfTagged(tag: string, i: int)
    requires |tag| > 0 && !IsSpace(tag[0]) && ':' !in tag
    ensures ParseIndex(tag + ":" + IntToString(i)) == Ok(i)
  {
    var digits := IntToString(i);
    var msg := tag + [':'] + digits;
    assert tag + ":" + digits == msg;
    assert Strip(msg) == msg by {
      IntToStringShape(i);
      assert IsDigit(digits[|digits| - 1]);
      assert msg[0] == tag[0] && msg[|msg| - 1] == digits[|digits| - 1];
      StripClean(msg);
    }
    assert Split(msg, ':') == [tag, digits] by {
      ColonNotInIntToString(i);
      SplitAtFirst(tag, ':', digits);
      SplitWithoutSeparator(digits, ':');
      assert Split(msg, ':') == [tag] + Split(digits, ':');
      assert [tag] + [digits] == [tag, digits];
    }
    assert ParseInt(digits) == Some(i) by {
      ParseIntOfIntToString(i);
    }
  }

  /** A request parses back to the index it names. */
  lemma ParseRequest(i: int)
    ensures ParseIndex(Request(i)) == Ok(i)
    ensures StartsWith(Request(i), RequestTag)
  {
    ParseIndexOfTagged(RequestTag, i);
  }

  /** A data reply parses back to the index it names. */
  lemma ParseData(i: int)
    ensures ParseIndex(Data(i)) == Ok(i)
    ensures StartsWith(Data(i), DataTag)
  {
    ParseIndexOfTagged(DataTag, i);
  }

  /** The refusal is not a data reply. */
  lemma NotAvailableIsNotData()
    ensures !StartsWith(NotAvailable, DataTag)
  {
    assert NotAvailable[6] != DataTag[6];
  }

  /** A `HAVE_PIECE` notification is never taken for a request. */
  lemma HaveIsNotRequest(msg: string)
    requires StartsWith(msg, HaveTag)
    ensures !StartsWith(msg, RequestTag)
  {
    assert msg[0] == HaveTag[0];
  }
}

=== FILE: wrappers.dfy ===
/** Failure-carrying values shared by the modules of the model. */
module Wrappers {

  /** A value that may be missing: Python's `None` or a lookup that finds nothing. */
  datatype Option<+T> = None | Some(value: T) {

    /** The carried value, or `default` when there is none (`dict.get(key, default)`). */
    function GetOr(default: T): T {
      match this
      case Some(v) => v
      case None => default
    }
  }

  /** The outcome of a step that may raise: `Ok` with a value or `Err` with what was raised. */
  datatype Result<+R, +E> = Ok(value: R) | Err(error: E)
}
